=== FILE: README.md ===
# BattleNode protocol engine in Dafny

This project models the protocol engine of `battle-node`, a client for the
BattlEye RCON protocol: a UDP request/response protocol for administering game
servers. The engine lives in `lib/index.js`. The model covers:

- **Frames.** `createBEPacket` writes `'B'`, `'E'`, the payload's CRC-32 with
  its four bytes reversed, then the payload. The receive path in `packet`
  checks the length, the magic and the checksum before dispatching
  (`frame.dfy`, with the Node `Buffer` integer reads and writes in `bytes.dfy`).
- **Payloads.** The login, command, keepalive and acknowledgement payloads,
  and the 0..255 sequence counter that wraps from 255 to 0 (`payloads.dfy`).
- **The engine.** An immutable record holds the engine's fields. One pure
  step function handles each event (`battlenode.dfy`):
  - `login()` and `sendCommand()`;
  - one run of the keepalive interval;
  - the login timeout firing;
  - an inbound datagram.

  Each step returns the new record and the list of effects, in order:
  datagrams sent, `login`, `message` and `disconnected` emitted, and command
  callbacks called.
- **Event sequences.** `Run` folds the steps over a list of events. A short
  payload makes `readUInt8` throw a `RangeError`, which is an explicit outcome
  that ends the run.
- **Properties.** Command/response correlation and multi-part reassembly are
  proved in `correlation.dfy`. The keepalive, the login handshake, server
  messages and ignored datagrams are proved in `session.dfy`.

Callbacks are opaque ids: `Function(id)` for a function and `NotFunction` for
any other non-null value. `sendCommand` stores both, but the dispatcher only
calls a function. The CRC-32 routine comes from the `buffer-crc32` library,
which is not part of this model. Every step therefore takes it as a parameter
of type `ChecksumFunction`, meaning any function from bytes to a 32-bit value;
`ChecksumBytes` gives that value's four bytes, most significant first, which
is what the library returns. Module `Crc32` is the reference definition of
that routine, the standard CRC-32 of ITU-T V.42; `StandardChecksumField`
states what it puts in a frame.

The model follows the code, quirks included:

- A command sent with sequence 255 files its callback under key -1, where no
  reply finds it (`CallbackFor255Unreachable`).
- `connected` starts false and nothing ever sets it; the engine has no other
  session state (`NeverConnected`).
- The keepalive interval starts at construction (`Create`).
- The tick that finds the previous keepalive unanswered emits `disconnected`,
  clears the interval and still sends a keepalive (`MissedKeepaliveDisconnects`).
- Sequence 0 also means "no keepalive outstanding", so a keepalive sent with
  sequence 0 is never found missing (`SequenceZeroKeepaliveNeverMissed`).
- A three-byte command reply is the keepalive acknowledgement, and it also
  reaches the single-part branch: it calls any function filed under its
  sequence with the empty text (`SinglePartDispatch`).
- A multi-part buffer stays when no callback is filed (`FragmentDispatch`).
- The 0xFF marker is never checked (`MarkerIgnored`).
- A login answer after the timeout's error still emits `login`
  (`LateLoginResponseStillEmits`).
- An accepted frame whose payload is too short for the reads its type needs
  throws a `RangeError` (`DispatchScope`, `ShortMultipartThrows`); every
  datagram that fails the receive checks is ignored (`MalformedIgnored`).

## Model

| member | source | states |
|---|---|---|
| Frame.CreateBEPacketMatchesLibrary | lib/index.js:193-206 | The frame the library builds equals: the magic, the payload's CRC-32 with its four bytes reversed, then the payload. The library gets there by writing the checksum's signed little-endian read back big-endian. |
| Frame.FrameLayout | lib/index.js:193-206 | A frame is six bytes longer than its payload. It starts with `'B'`, `'E'`, then the reversed CRC-32, and ends with the payload. |
| Frame.FrameInjective | lib/index.js:193-206 | Two payloads give the same frame only if they are equal. |
| Frame.UnframeMatchesLibrary | lib/index.js:78-88 | The library's check, which compares the checksum field read as a signed big-endian integer with the payload's CRC-32 read as a signed little-endian integer, accepts exactly the same datagrams as `Unframe` and yields the same payload. |
| Frame.RoundTrip | lib/index.js:78-88 | The receive check accepts the frame of any non-empty payload and recovers exactly that payload. |
| Frame.AcceptedIsFramed | lib/index.js:78-88 | Every accepted datagram is exactly the frame of the payload it yields. |
| Frame.EmptyPayloadNotAccepted | lib/index.js:78 | The six-byte frame of an empty payload is below the minimum length and is ignored. |
| Frame.HeaderTamperRejected | lib/index.js:81-88 | Changing any single byte of the magic or the checksum field of a valid frame makes the receive check reject it. |
| Frame.StandardChecksumField | lib/index.js:197-199 | With the standard CRC-32 as the routine, bytes 2..5 of a frame are the four bytes `buffer-crc32` returns for the payload, reversed. |
| Bytes.ReadBEEqualsReadLE | lib/index.js:84-88 | The signed big-endian read of the checksum field equals the signed little-endian read of the CRC-32 exactly when the field holds the CRC-32's bytes reversed. |
| Bytes.WriteBEOfReadLE | lib/index.js:199 | Writing the little-endian read big-endian reverses the four bytes. |
| Payloads.LoginPayload | lib/index.js:208-215 | A login payload is 0xFF, type 0, then the password, and is two bytes longer than the password. |
| Payloads.CommandPayload | lib/index.js:254-261 | A command payload is 0xFF, type 1, the sequence, then the command text. The dispatcher's readers return exactly those fields. |
| Payloads.KeepalivePayload | lib/index.js:223-229 | A keepalive payload is a command payload with an empty text. |
| Payloads.AckPayload | lib/index.js:241-247 | An acknowledgement is the three bytes 0xFF, type 2, the acknowledged sequence. |
| Payloads.CommandPayloadInjective | lib/index.js:254-261 | Different sequences or command texts give different command payloads. |
| Payloads.NextSequence | lib/index.js:233 | The counter step adds one modulo 256. |
| Payloads.AdvanceIsAddition | lib/index.js:263 | `n` counter steps add `n` modulo 256. |
| Payloads.CounterPeriod | lib/index.js:263 | After between 1 and 256 steps, the counter is back at its start exactly when 256 steps were taken. |
| Payloads.AdvanceDistinct | lib/index.js:263 | Within 256 steps the counter never repeats a value. |
| BattleNode.Create | lib/index.js:12-47 | A new engine is unconnected, with counter 0, no outstanding keepalive, no login answer, no callbacks and the keepalive interval running. |
| BattleNode.KeepalivePacket | lib/index.js:223-239 | The keepalive datagram passes the receive check and carries a three-byte command whose sequence byte is the sequence now recorded as outstanding, the counter's old value. The counter moves on by one modulo 256 and nothing else changes. |
| BattleNode.CommandPacket | lib/index.js:254-269 | The command datagram passes the receive check and carries type 1, the counter's old value and the command text. The counter moves on by one modulo 256 and nothing else changes. |
| BattleNode.CallbackKey | lib/index.js:279-283 | The callback key is the sequence the command used, except that 255 becomes -1. The key always lies in -1..254. |
| BattleNode.Login | lib/index.js:53-72 | `login()` sends one datagram to the configured address. It passes the receive check and carries 0xFF, type 0 and the configured password. One more timeout is scheduled and nothing else changes. |
| BattleNode.SendCommand | lib/index.js:272-285 | `sendCommand` sends one datagram to the configured address, carrying the command with the counter's old value. A non-null callback is then found under `CallbackKey` of that value, a null one leaves the table as it was, and no other entry changes. Only the counter and the table change. |
| BattleNode.KeepaliveTick | lib/index.js:33-47 | A tick reports `disconnected` exactly when the interval runs and the previous keepalive is unanswered. The interval survives exactly when it ran with nothing outstanding. A running interval's tick sends exactly one keepalive, last, preceded only by `disconnected` when that is reported. The keepalive carries the counter's old value, which is now recorded as outstanding, and the counter moves on by one modulo 256. A cleared interval does nothing. No other field changes. Callbacks, buffers and the invariant are untouched. |
| BattleNode.LoginTimeout | lib/index.js:61-70 | A firing timeout reports the login error exactly when no answer was recorded, and then also clears the interval. The interval survives exactly when it ran and an answer was recorded. An answered timeout reports nothing at all, and an unanswered one reports only the error. It uses up one scheduled timeout and changes no other field; with none scheduled it does nothing. |
| BattleNode.OnCommandResponseScope | lib/index.js:107-172 | A command reply throws exactly when it has five bytes and a zero fourth byte. Otherwise it removes at most the callback filed under its own sequence. |
| BattleNode.DispatchScope | lib/index.js:90-185 | A payload throws exactly when it is too short for the reads its type makes. One shorter than three bytes changes nothing. Any other touches no callback except the one under its sequence byte. |
| BattleNode.PacketScope | lib/index.js:74-191 | A datagram failing the length, magic or checksum check changes nothing and causes nothing. An accepted one throws exactly when its payload is too short, and otherwise removes at most the callback under its sequence byte. |
| BattleNode.ReceiveFrame | lib/index.js:78-90 | The receive path hands the payload of any framed non-empty payload to the dispatcher unchanged. |
| BattleNode.ApplyKeepsConfig | lib/index.js:17 | No event changes the configuration or the `connected` field. |
| BattleNode.SendCommandPreservesValid | lib/index.js:279-283 | `sendCommand` only files callbacks under keys -1..254. |
| BattleNode.RunPreservesValid | lib/index.js:17-20 | Every engine reached from a valid one is valid: it is unconnected, with callbacks only under -1..254. |
| Correlation.CommandsRun | lib/index.js:260-283 | A run of `sendCommand` calls sends exactly the frames `SentCommands` lists, one per call. It advances the counter once per call. |
| Correlation.SentCommandsAt | lib/index.js:260-263 | The i-th datagram of consecutive commands carries command i with the counter i steps past the start. |
| Correlation.CommandsUseConsecutiveSequences | lib/index.js:254-285 | Consecutive `sendCommand` calls send one datagram each, with consecutive sequence numbers modulo 256. |
| Correlation.SequenceCycle | lib/index.js:263 | 256 consecutive commands send 256 pairwise different datagrams and bring the counter back to its start. |
| Correlation.CallbackFor255Unreachable | lib/index.js:279-283 | A callback filed for sequence 255 sits under -1. No datagram removes it. |
| Correlation.SinglePartDispatch | lib/index.js:157-167 | A single-part reply calls the function filed under its sequence once with the reply text and removes only that entry. With no function filed, the callback table is unchanged. An empty reply matching the outstanding keepalive also clears it. |
| Correlation.SinglePartReply | lib/index.js:157-167 | The same as `SinglePartDispatch`, for the framed reply received as a datagram. |
| Correlation.CommandThenReply | lib/index.js:157-167 | When the counter is below 255, nothing is filed under it yet, and the reply is a non-empty single-part text: a command sent with a function callback, then its reply, gives the send followed by one call with the reply text, and the table ends as it began. At 255 the callback sits under -1 and the reply calls nothing (`CallbackFor255Unreachable`). |
| Correlation.FragmentDispatch | lib/index.js:124-155 | A fragment appends its part to the buffer for its sequence. The last fragment, with a function filed, calls it with the whole buffer and drops both entries. Otherwise the extended buffer stays and nothing is called. |
| Correlation.FragmentReceived | lib/index.js:124-155 | The same as `FragmentDispatch`, for the framed fragment received as a datagram. |
| Correlation.LastFragmentDispatch | lib/index.js:142-153 | The last fragment, with the earlier parts buffered, calls the callback with all parts joined and clears both entries. |
| Correlation.MiddleFragmentDispatch | lib/index.js:130-139 | A middle fragment, with the earlier parts buffered, extends the buffer by its part and calls nothing. |
| Correlation.FragmentsFrom | lib/index.js:124-155 | Receiving the remaining fragments in order, with the earlier ones buffered, ends with one call of the callback on all parts joined, and both entries cleared. |
| Correlation.MultipartReassembly | lib/index.js:124-155 | When a function is filed under the sequence and no buffer is left under it from an earlier reply: all 1..255 fragments of a reply received in order call the function once, with their parts joined in arrival order. The callback is removed and no buffer is left. A leftover buffer would be joined in front (`FragmentDispatch`). |
| Session.KeepaliveAckClears | lib/index.js:113-119 | The three-byte answer to the outstanding keepalive resets the outstanding sequence to 0. Counter and interval are unchanged. |
| Session.MissedKeepaliveDisconnects | lib/index.js:33-47 | With the interval running, nothing outstanding and the counter not at 0: two ticks with no answer send a keepalive, then emit `disconnected`, stop the interval and still send a second keepalive. The counter moves twice. At counter 0 the second tick reports nothing (`SequenceZeroKeepaliveNeverMissed`). |
| Session.SequenceZeroKeepaliveNeverMissed | lib/index.js:36 | A keepalive sent with sequence 0 is never found missing. The next tick sends another keepalive without reporting anything. |
| Session.AnsweredKeepaliveStaysAlive | lib/index.js:33-47 | With the interval running, nothing outstanding and no function filed under the counter: a tick, the answer to its keepalive, and another tick send both keepalives and report nothing. The interval keeps running. With a function filed, the answer also calls it with the empty text (`SinglePartDispatch`). |
| Session.StoppedKeepaliveSilent | lib/index.js:38 | After the interval is cleared, any number of ticks changes nothing and causes nothing. |
| Session.StoppedStaysStopped | lib/index.js:33-47 | Once the interval is cleared, no sequence of events of any kind restarts it or reports `disconnected` again. |
| Session.DisconnectedAtMostOnce | lib/index.js:36-39 | Over any run, `disconnected` is reported at most once. |
| Session.LoginResponse | lib/index.js:92-105 | A login answer records that the server answered. It emits `login` with success exactly when its third byte is 1, and changes nothing else. |
| Session.LoginUnanswered | lib/index.js:61-70 | `login()` with no answer before the timeout sends the login. The timeout then emits the login error and stops the keepalive. |
| Session.LoginAnswered | lib/index.js:53-72 | `login()` answered before the timeout emits `login` with the answer's outcome. The timeout then does nothing. |
| Session.LateLoginResponseStillEmits | lib/index.js:92-105 | A login answer after the timeout's error still emits `login` with its outcome. |
| Session.ServerMessageAcknowledged | lib/index.js:174-184 | A server message is acknowledged with the framed 0xFF, 0x02, its sequence, then emitted with its text. The state is unchanged. |
| Session.UnknownTypeIgnored | lib/index.js:90-185 | A payload whose type byte is above 2 changes nothing and causes nothing. |
| Session.MarkerIgnored | lib/index.js:90 | The dispatcher gives the same outcome whatever the first payload byte is. |
| Session.ShortMultipartThrows | lib/index.js:124-127 | A five-byte command reply with a zero fourth byte throws when its part index is read at offset 5. |
| Session.MalformedIgnored | lib/index.js:78-88 | Any number of datagrams failing the receive checks change nothing and cause nothing. |
| Session.NeverConnected | lib/index.js:17 | From a new engine, no sequence of events sets `connected`. |

## Left out

- The UDP socket (`dgram`, `socket.send`, `socket.on`): a sent datagram is a `Send` effect carrying the bytes, port and address. Received datagrams are `Datagram` events.
- Timers (`setInterval`, `setTimeout`): the 10-second tick and the 5-second login timeout are events. `keepaliveRunning` stands for an interval not yet cleared, and `pendingLoginTimeouts` counts timeouts scheduled but not yet fired. Time itself is not modelled.
- The CRC-32 routine of `buffer-crc32` is a parameter. The proofs use only that it maps bytes to a 32-bit value.
- `EventEmitter` plumbing (`util.inherits`, `emit`, `on`): emissions are effect values.
- UTF-8 encoding and decoding (`Buffer.write`, `toString`): passwords, commands and texts are byte sequences. The truncation of a string whose UTF-8 form is longer than its `.length` is not modelled.
- What happens after a `RangeError`: in Node the exception leaves the `message` handler. The model only reports it and ends the run.
- Callbacks are opaque ids, and what a called callback does is not modelled. This includes any `sendCommand` it might make while the dispatcher is running.
- `example.js` is a console demo around the engine and is not part of this model.

=== FILE: battlenode.dfy ===
/**
 The BattleNode protocol engine as pure step functions. The engine's fields
 are an immutable record; every event (the `login()` call, `sendCommand()`,
 a keepalive tick, the login timeout firing, an inbound datagram) maps a state
 to a new state and the list of effects it causes, in order: datagrams sent,
 events emitted, command callbacks called.
 */
module BattleNode {
  import opened Wrappers
  import opened Bytes
  import opened Frame
  import opened Payloads

  /** Where every datagram goes, and the password `login()` sends. */
  datatype Config = Config(ip: string, port: int, rconPassword: bytes)

  /**
   The non-null value given to `sendCommand` as its callback. Only a
   function is ever called; any other value is stored but never called.
   */
  datatype Callback = Function(id: nat) | NotFunction

  datatype Engine = Engine(
    config: Config,
    /** Set at construction and never updated. */
    connected: bool,
    /** The next sequence number, 0..255. */
    sequence: uint8,
    /** Pending command callbacks, keyed by sequence (255 is stored as -1). */
    callbacks: map<int, Callback>,
    /** Multi-part reply text received so far, keyed by sequence. */
    multipartPacket: map<uint8, bytes>,
    /** The sequence of the last keepalive not yet acknowledged; 0 when none. */
    lastKeepaliveSequence: uint8,
    receivedLoginResponse: bool,
    /** The keepalive interval has not been cleared. */
    keepaliveRunning: bool,
    /** Login timeouts scheduled and not yet fired. */
    pendingLoginTimeouts: nat)

  datatype Effect =
    | Send(datagram: bytes, port: int, ip: string)
    /** `emit('login', null, success)`: the server answered the login. */
    | EmitLogin(success: bool)
    /** `emit('login', true)`: no answer within five seconds. */
    | EmitLoginError
    | EmitMessage(message: bytes)
    | EmitDisconnected
    | Call(callback: nat, response: bytes)

  /** The result of a timer or caller event, which cannot throw. */
  datatype Step = Step(engine: Engine, effects: seq<Effect>)

  /**
   The result of handling a datagram: either the new state and effects, or
   the `RangeError` that `readUInt8(offset)` throws on a payload too short
   for it (raised before any field is updated).
   */
  datatype Outcome = Done(engine: Engine, effects: seq<Effect>) | RangeError(offset: nat)

  /** Keys under which `sendCommand` can store a callback. */
  predicate ValidCallbackKey(k: int) {
    -1 <= k < 255
  }

  /** What holds of every reachable engine. */
  predicate Valid(e: Engine) {
    && !e.connected
    && forall k :: k in e.callbacks ==> ValidCallbackKey(k)
  }

  /**
   What a datagram with sequence byte `sequence` may change: it removes at
   most the callback filed under that sequence, and leaves the configuration
   and `connected` alone.
   */
  predicate InboundFrame(e: Engine, e': Engine, sequence: uint8) {
    && (e'.callbacks == e.callbacks || e'.callbacks == e.callbacks - {sequence as int})
    && e'.config == e.config
    && e'.connected == e.connected
  }

  function SendTo(c: Config, datagram: bytes): (effect: Effect) {
    Send(datagram, c.port, c.ip)
  }

  /** `new BattleNode(config)`: empty tables, counter 0, keepalive interval started. */
  function Create(config: Config): (e: Engine)
    ensures Valid(e) && e.config == config
    ensures e.callbacks == map[] && e.multipartPacket == map[]
    ensures e.sequence == 0 && e.lastKeepaliveSequence == 0 && !e.receivedLoginResponse
    ensures e.keepaliveRunning && e.pendingLoginTimeouts == 0
  {
    Engine(config, false, 0, map[], map[], 0, false, true, 0)
  }

  // ---- packet builders -------------------------------------------------

  /** `loginPacket(password)`. */
  function LoginPacket(crc32: ChecksumFunction, password: bytes): (packet: bytes) {
    CreateBEPacket(crc32, LoginPayload(password))
  }

  /** `ackPacket(sequence)`. */
  function AckPacket(crc32: ChecksumFunction, sequence: uint8): (packet: bytes) {
    CreateBEPacket(crc32, AckPayload(sequence))
  }

  /**
   `keepalivePacket()`: the datagram passes the receive check and is an empty
   command whose sequence byte is the one now recorded as outstanding, the
   counter's old value; the counter moves on by one modulo 256 and nothing
   else changes.
   */
  function KeepalivePacket(crc32: ChecksumFunction, e: Engine): (r: (Engine, bytes))
    ensures Unframe(crc32, r.1).Some?
    ensures var p := Unframe(crc32, r.1).value;
      && |p| == 3 && TypeOf(p) == BE_COMMAND_PACKET
      && SequenceOf(p) == r.0.lastKeepaliveSequence == e.sequence
    ensures r.0.sequence == (e.sequence + 1) % 0x100
    ensures r.0 == e.(lastKeepaliveSequence := r.0.lastKeepaliveSequence, sequence := r.0.sequence)
  {
    var data := KeepalivePayload(e.sequence);
    RoundTrip(crc32, data);
    (e.(lastKeepaliveSequence := e.sequence, sequence := NextSequence(e.sequence)), CreateBEPacket(crc32, data))
  }

  /**
   `commandPacket(command)`: the datagram passes the receive check and
   carries type 1, the counter's old value and the command text; the counter
   moves on by one modulo 256 and nothing else changes.
   */
  function CommandPacket(crc32: ChecksumFunction, e: Engine, command: bytes): (r: (Engine, bytes))
    ensures Unframe(crc32, r.1).Some?
    ensures var p := Unframe(crc32, r.1).value;
      && |p| >= 3 && TypeOf(p) == BE_COMMAND_PACKET
      && SequenceOf(p) == e.sequence && TextOf(p) == command
    ensures r.0.sequence == (e.sequence + 1) % 0x100
    ensures r.0 == e.(sequence := r.0.sequence)
  {
    var data := CommandPayload(e.sequence, command);
    RoundTrip(crc32, data);
    (e.(sequence := NextSequence(e.sequence)), CreateBEPacket(crc32, data))
  }

  /**
   The key `sendCommand` files a callback under: the sequence the command
   used, except that 255 is filed as -1 (the advanced counter minus one).
   */
  function CallbackKey(used: uint8): (k: int)
    ensures ValidCallbackKey(k)
    ensures used < 255 ==> k == used
    ensures used == 255 ==> k == -1
  {
    NextSequence(used) - 1
  }

  // ---- caller events ---------------------------------------------------

  /**
   `login()` sends one datagram, to the configured address, that passes the
   receive check and carries a login with the configured password; it
   schedules one more five-second timeout and changes nothing else.
   */
  function Login(crc32: ChecksumFunction, e: Engine): (r: Step)
    ensures |r.effects| == 1 && r.effects[0].Send?
    ensures r.effects[0].port == e.config.port && r.effects[0].ip == e.config.ip
    ensures Unframe(crc32, r.effects[0].datagram).Some?
    ensures var p := Unframe(crc32, r.effects[0].datagram).value;
      && |p| >= 2 && p[0] == MARKER && TypeOf(p) == BE_LOGIN_PACKET
      && p[2..] == e.config.rconPassword
    ensures r.engine.pendingLoginTimeouts == e.pendingLoginTimeouts + 1
    ensures r.engine == e.(pendingLoginTimeouts := r.engine.pendingLoginTimeouts)
  {
    RoundTrip(crc32, LoginPayload(e.config.rconPassword));
    Step(e.(pendingLoginTimeouts := e.pendingLoginTimeouts + 1),
         [SendTo(e.config, LoginPacket(crc32, e.config.rconPassword))])
  }

  /**
   `sendCommand(command, callback)` sends one datagram, to the configured
   address, that passes the receive check and carries the command with the
   counter's old value. A non-null callback is then found under `CallbackKey`
   of that value and a null one leaves the table as it was; no other entry
   changes, and only the counter and the table do.
   */
  function SendCommand(crc32: ChecksumFunction, e: Engine, command: bytes, callback: Option<Callback>): (r: Step)
    ensures |r.effects| == 1 && r.effects[0].Send?
    ensures r.effects[0].port == e.config.port && r.effects[0].ip == e.config.ip
    ensures Unframe(crc32, r.effects[0].datagram).Some?
    ensures var p := Unframe(crc32, r.effects[0].datagram).value;
      && |p| >= 3 && TypeOf(p) == BE_COMMAND_PACKET
      && SequenceOf(p) == e.sequence && TextOf(p) == command
    ensures r.engine.sequence == (e.sequence + 1) % 0x100
    ensures callback.Some? ==>
      CallbackKey(e.sequence) in r.engine.callbacks && r.engine.callbacks[CallbackKey(e.sequence)] == callback.value
    ensures callback.None? ==> r.engine.callbacks == e.callbacks
    ensures r.engine.callbacks - {CallbackKey(e.sequence)} == e.callbacks - {CallbackKey(e.sequence)}
    ensures r.engine == e.(sequence := r.engine.sequence, callbacks := r.engine.callbacks)
  {
    var built := CommandPacket(crc32, e, command);
    var e1 := built.0;
    var send := SendTo(e.config, built.1);
    if callback.None? then Step(e1, [send])
    else
      RemoveUpdated(e.callbacks, CallbackKey(e.sequence), callback.value);
      Step(e1.(callbacks := e1.callbacks[CallbackKey(e.sequence) := callback.value]), [send])
  }

  // ---- timer events ----------------------------------------------------

  /**
   One run of the keepalive interval. It reports `disconnected` exactly when
   it is running and the previous keepalive is unanswered, and leaves the
   interval running exactly when it was running with nothing outstanding. A
   running interval sends exactly one datagram, last: it passes the receive
   check and is an empty command carrying the counter's old value, which is
   now recorded as outstanding, and the counter moves on by one. A cleared
   interval does nothing. No other field changes, and the invariant is kept.
   */
  function KeepaliveTick(crc32: ChecksumFunction, e: Engine): (r: Step)
    ensures EmitDisconnected in r.effects <==> e.keepaliveRunning && e.lastKeepaliveSequence != 0
    ensures r.engine.keepaliveRunning <==> e.keepaliveRunning && e.lastKeepaliveSequence == 0
    ensures !e.keepaliveRunning ==> r == Step(e, [])
    ensures e.keepaliveRunning ==>
      && |r.effects| > 0
      && var last := r.effects[|r.effects| - 1];
      && last.Send? && last.port == e.config.port && last.ip == e.config.ip
      && Unframe(crc32, last.datagram).Some?
      && var p := Unframe(crc32, last.datagram).value;
      && |p| == 3 && TypeOf(p) == BE_COMMAND_PACKET
      && SequenceOf(p) == r.engine.lastKeepaliveSequence
    ensures e.keepaliveRunning ==>
      && r.engine.lastKeepaliveSequence == e.sequence
      && r.engine.sequence == (e.sequence + 1) % 0x100
      && |r.effects| == (if e.lastKeepaliveSequence != 0 then 2 else 1)
    ensures r.engine == e.(keepaliveRunning := r.engine.keepaliveRunning,
                           lastKeepaliveSequence := r.engine.lastKeepaliveSequence,
                           sequence := r.engine.sequence)
    ensures r.engine.callbacks == e.callbacks && r.engine.multipartPacket == e.multipartPacket
    ensures Valid(e) ==> Valid(r.engine)
  {
    if !e.keepaliveRunning then Step(e, [])
    else
      var lost := e.lastKeepaliveSequence != 0;
      var e1 := if lost then e.(keepaliveRunning := false) else e;
      var built := KeepalivePacket(crc32, e1);
      var send := SendTo(e.config, built.1);
      if lost then Step(built.0, [EmitDisconnected, send]) else Step(built.0, [send])
  }

  /**
   The login timeout firing reports the login error exactly when no login
   answer has been recorded, and then also clears the keepalive interval; an
   answered timeout reports nothing. Either way it uses up one scheduled
   timeout. With none
   scheduled it does nothing.
   */
  function LoginTimeout(e: Engine): (r: Step)
    ensures e.pendingLoginTimeouts == 0 ==> r == Step(e, [])
    ensures e.pendingLoginTimeouts > 0 ==>
      && (EmitLoginError in r.effects <==> !e.receivedLoginResponse)
      && (r.engine.keepaliveRunning <==> e.keepaliveRunning && e.receivedLoginResponse)
      && |r.effects| <= 1
      && (e.receivedLoginResponse ==> r.effects == [])
      && r.engine.pendingLoginTimeouts == e.pendingLoginTimeouts - 1
      && r.engine == e.(pendingLoginTimeouts := r.engine.pendingLoginTimeouts,
                        keepaliveRunning := r.engine.keepaliveRunning)
  {
    if e.pendingLoginTimeouts == 0 then Step(e, [])
    else
      var e1 := e.(pendingLoginTimeouts := e.pendingLoginTimeouts - 1);
      if !e.receivedLoginResponse then Step(e1.(keepaliveRunning := false), [EmitLoginError])
      else Step(e1, [])
  }

  // ---- inbound datagrams -----------------------------------------------

  /** A payload the dispatcher reads past the end of, throwing `RangeError`. */
  predicate TooShort(p: bytes) {
    || |p| < 2
    || (p[1] <= BE_SERVER_MSG_PACKET && |p| < 3)
    || (p[1] == BE_COMMAND_PACKET && |p| == 5 && p[3] == 0)
  }

  /** The `multipartPacket` entry after appending `part` for `sequence`. */
  function AppendPart(m: map<uint8, bytes>, sequence: uint8, part: bytes): (appended: map<uint8, bytes>) {
    if sequence !in m then m[sequence := part] else m[sequence := m[sequence] + part]
  }

  /** Deleting a key undoes any update of it. */
  lemma RemoveUpdated<K, V>(m: map<K, V>, k: K, v: V)
    ensures m[k := v] - {k} == m - {k}
  {
  }

  /** Deleting an absent key changes nothing. */
  lemma RemoveAbsent<K, V>(m: map<K, V>, k: K)
    requires k !in m
    ensures m - {k} == m
  {
  }

  /** `typeof(callbacks[sequence]) == 'function'`. */
  predicate HasFunction(e: Engine, sequence: uint8) {
    sequence as int in e.callbacks && e.callbacks[sequence as int].Function?
  }

  /** A command reply (type 1) of at least three bytes. */
  function OnCommandResponse(e: Engine, payload: bytes): (r: Outcome)
    requires |payload| >= 3 && payload[1] == BE_COMMAND_PACKET
  {
    var sequence := payload[2];
    var message := payload[3..];
    var e1 :=
      if |payload| == 3 && payload[1] == 1 && payload[2] == e.lastKeepaliveSequence
      then e.(lastKeepaliveSequence := 0) else e;
    if |payload| > 4 && payload[3] == 0 then
      if |payload| < 6 then RangeError(5)
      else
        var totalPackets := payload[4];
        var packetIndex := payload[5];
        var partPacket := payload[6..];
        var e2 := e1.(multipartPacket := AppendPart(e1.multipartPacket, sequence, partPacket));
        if packetIndex as int + 1 == totalPackets as int && HasFunction(e2, sequence) then
          Done(e2.(callbacks := e2.callbacks - {sequence as int},
                   multipartPacket := e2.multipartPacket - {sequence}),
               [Call(e2.callbacks[sequence as int].id, e2.multipartPacket[sequence])])
        else Done(e2, [])
    else if HasFunction(e1, sequence) then
      Done(e1.(callbacks := e1.callbacks - {sequence as int}), [Call(e1.callbacks[sequence as int].id, message)])
    else Done(e1, [])
  }

  /** The `switch` on the payload type of an accepted frame. */
  function Dispatch(crc32: ChecksumFunction, e: Engine, payload: bytes): (r: Outcome)
    requires |payload| >= 1
  {
    if |payload| < 2 then RangeError(1)
    else if payload[1] == BE_LOGIN_PACKET then
      if |payload| < 3 then RangeError(2)
      else Done(e.(receivedLoginResponse := true), [EmitLogin(payload[2] == 1)])
    else if payload[1] == BE_COMMAND_PACKET then
      if |payload| < 3 then RangeError(2)
      else OnCommandResponse(e, payload)
    else if payload[1] == BE_SERVER_MSG_PACKET then
      if |payload| < 3 then RangeError(2)
      else
        var sequence := payload[2];
        Done(e, [SendTo(e.config, AckPacket(crc32, sequence)), EmitMessage(payload[3..])])
    else Done(e, [])
  }

  /**
   A command reply throws exactly when it is five bytes with a zero fourth
   byte, and otherwise removes at most the callback filed under its sequence.
   */
  lemma OnCommandResponseScope(e: Engine, payload: bytes)
    requires |payload| >= 3 && payload[1] == BE_COMMAND_PACKET
    ensures var r := OnCommandResponse(e, payload);
      && (r.RangeError? <==> |payload| == 5 && payload[3] == 0)
      && (r.Done? ==> InboundFrame(e, r.engine, payload[2]))
  {
    var r := OnCommandResponse(e, payload);
    if r.Done? {
      assert r.engine.config == e.config && r.engine.connected == e.connected;
    }
  }

  /**
   What any accepted payload can do: a payload too short for the fields its
   type needs throws; the rest remove at most the callback filed under their
   sequence byte, and one shorter than three bytes changes nothing.
   */
  lemma DispatchScope(crc32: ChecksumFunction, e: Engine, payload: bytes)
    requires |payload| >= 1
    ensures var r := Dispatch(crc32, e, payload);
      && (r.RangeError? <==> TooShort(payload))
      && (r.Done? && |payload| < 3 ==> r == Done(e, []))
      && (r.Done? && |payload| >= 3 ==> InboundFrame(e, r.engine, payload[2]))
  {
    if |payload| >= 3 && payload[1] == BE_COMMAND_PACKET {
      OnCommandResponseScope(e, payload);
    }
  }

  /**
   `packet(msg)`: datagrams that fail the length, magic or checksum check
   are ignored; the payload of the rest is dispatched on its type.
   */
  function Packet(crc32: ChecksumFunction, e: Engine, msg: bytes): (r: Outcome)
  {
    match Unframe(crc32, msg)
    case None => Done(e, [])
    case Some(payload) => Dispatch(crc32, e, payload)
  }

  /**
   What any datagram can do: one that fails the checks changes nothing, one
   whose payload is too short throws, and the rest remove at most the
   callback filed under their sequence byte.
   */
  lemma PacketScope(crc32: ChecksumFunction, e: Engine, msg: bytes)
    ensures var r := Packet(crc32, e, msg);
      && (!WellFormed(crc32, msg) ==> r == Done(e, []))
      && (r.RangeError? <==> WellFormed(crc32, msg) && TooShort(msg[HEADER_LENGTH..]))
      && (r.Done? && |msg| < HEADER_LENGTH + 3 ==> r == Done(e, []))
      && (r.Done? && |msg| >= HEADER_LENGTH + 3 ==> InboundFrame(e, r.engine, msg[HEADER_LENGTH + 2]))
  {
    if WellFormed(crc32, msg) {
      DispatchScope(crc32, e, msg[HEADER_LENGTH..]);
    }
  }

  /** A framed payload reaches the dispatcher unchanged. */
  lemma ReceiveFrame(crc32: ChecksumFunction, e: Engine, p: bytes)
    requires |p| >= 1
    ensures Packet(crc32, e, CreateBEPacket(crc32, p)) == Dispatch(crc32, e, p)
  {
    RoundTrip(crc32, p);
  }

  // ---- event sequences -------------------------------------------------

  datatype Event =
    | LoginCalled
    | CommandSent(command: bytes, callback: Option<Callback>)
    | Tick
    | LoginTimerFired
    | Datagram(msg: bytes)

  function Apply(crc32: ChecksumFunction, e: Engine, ev: Event): (r: Outcome)
  {
    match ev
    case LoginCalled => var s := Login(crc32, e); Done(s.engine, s.effects)
    case CommandSent(c, cb) => var s := SendCommand(crc32, e, c, cb); Done(s.engine, s.effects)
    case Tick => var s := KeepaliveTick(crc32, e); Done(s.engine, s.effects)
    case LoginTimerFired => var s := LoginTimeout(e); Done(s.engine, s.effects)
    case Datagram(m) => Packet(crc32, e, m)
  }

  /** No event changes the configuration or `connected`. */
  lemma ApplyKeepsConfig(crc32: ChecksumFunction, e: Engine, ev: Event)
    ensures var r := Apply(crc32, e, ev);
      r.Done? ==> r.engine.config == e.config && r.engine.connected == e.connected
  {
    match ev
    case Datagram(m) => PacketScope(crc32, e, m);
    case _ =>
  }

  /** A datagram event is the receive path. */
  lemma ApplyDatagram(crc32: ChecksumFunction, e: Engine, msg: bytes)
    ensures Apply(crc32, e, Datagram(msg)) == Packet(crc32, e, msg)
  {
  }

  /** The effects `fx` followed by those of `rest`, unless `rest` threw. */
  function Prepend(fx: seq<Effect>, rest: Outcome): (r: Outcome)
    ensures rest.RangeError? ==> r == rest
    ensures rest.Done? ==> r == Done(rest.engine, fx + rest.effects)
  {
    match rest
    case RangeError(o) => rest
    case Done(e, fx2) => Done(e, fx + fx2)
  }

  /** An event with no effects leaves the rest of the run as it is. */
  lemma PrependNothing(r: Outcome)
    ensures Prepend([], r) == r
  {
    if r.Done? {
      assert [] + r.effects == r.effects;
    }
  }

  /** Handling every event of `evs` in turn; a `RangeError` ends the run. */
  function Run(crc32: ChecksumFunction, e: Engine, evs: seq<Event>): (r: Outcome)
    decreases |evs|, 1
  {
    if |evs| == 0 then Done(e, []) else RunFirst(crc32, e, evs)
  }

  /** A non-empty run: the first event, then the rest unless it threw. */
  function RunFirst(crc32: ChecksumFunction, e: Engine, evs: seq<Event>): (r: Outcome)
    requires |evs| > 0
    decreases |evs|, 0
  {
    var first := Apply(crc32, e, evs[0]);
    if first.RangeError? then first
    else Prepend(first.effects, Run(crc32, first.engine, evs[1..]))
  }

  /** A non-empty run handles its first event and then, unless it threw, the rest. */
  lemma RunStep(crc32: ChecksumFunction, e: Engine, evs: seq<Event>)
    requires |evs| > 0
    ensures var first := Apply(crc32, e, evs[0]);
      && (first.RangeError? ==> Run(crc32, e, evs) == first)
      && (first.Done? ==> Run(crc32, e, evs) == Prepend(first.effects, Run(crc32, first.engine, evs[1..])))
  {
  }

  /** A run of `[ev] + evs` handles `ev` and then, unless it threw, the rest. */
  lemma RunCons(crc32: ChecksumFunction, e: Engine, ev: Event, evs: seq<Event>)
    ensures var first := Apply(crc32, e, ev);
      && (first.RangeError? ==> Run(crc32, e, [ev] + evs) == first)
      && (first.Done? ==> Run(crc32, e, [ev] + evs) == Prepend(first.effects, Run(crc32, first.engine, evs)))
  {
    assert ([ev] + evs)[0] == ev;
    assert ([ev] + evs)[1..] == evs;
  }

  /** An event that emits nothing hands the rest of the run its new state. */
  lemma RunQuiet(crc32: ChecksumFunction, e: Engine, ev: Event, evs: seq<Event>, e1: Engine)
    requires Apply(crc32, e, ev) == Done(e1, [])
    ensures Run(crc32, e, [ev] + evs) == Run(crc32, e1, evs)
  {
    RunCons(crc32, e, ev, evs);
    PrependNothing(Run(crc32, e1, evs));
  }

  /** A run of one event that does not throw is that event's outcome. */
  lemma RunSingle(crc32: ChecksumFunction, e: Engine, ev: Event)
    requires Apply(crc32, e, ev).Done?
    ensures Run(crc32, e, [ev]) == Apply(crc32, e, ev)
  {
    RunCons(crc32, e, ev, []);
    assert [ev] + [] == [ev];
    var first := Apply(crc32, e, ev);
    assert first.effects + [] == first.effects;
  }

  // ---- the invariant ---------------------------------------------------

  /** `sendCommand` files callbacks only under keys -1..254. */
  lemma SendCommandPreservesValid(crc32: ChecksumFunction, e: Engine, command: bytes, callback: Option<Callback>)
    requires Valid(e)
    ensures Valid(SendCommand(crc32, e, command, callback).engine)
  {
    var r := SendCommand(crc32, e, command, callback).engine;
    forall k | k in r.callbacks ensures ValidCallbackKey(k) {
      if k !in e.callbacks {
        assert k == CallbackKey(e.sequence);
      }
    }
  }

  /** Every event keeps the invariant. */
  lemma ApplyPreservesValid(crc32: ChecksumFunction, e: Engine, ev: Event)
    requires Valid(e)
    requires Apply(crc32, e, ev).Done?
    ensures Valid(Apply(crc32, e, ev).engine)
  {
    match ev
    case CommandSent(c, cb) => SendCommandPreservesValid(crc32, e, c, cb);
    case Datagram(m) =>
      PacketScope(crc32, e, m);
      var r := Packet(crc32, e, m);
      assert r.engine.callbacks.Keys <= e.callbacks.Keys;
    case _ =>
  }

  /**
   Every engine reachable from a valid one is valid: `connected` stays false
   and no callback is filed under 255.
   */
  lemma {:induction false} RunPreservesValid(crc32: ChecksumFunction, e: Engine, evs: seq<Event>)
    requires Valid(e)
    requires Run(crc32, e, evs).Done?
    ensures Valid(Run(crc32, e, evs).engine)
    decreases |evs|
  {
    if |evs| > 0 {
      var first := Apply(crc32, e, evs[0]);
      assert first.Done?;
      var rest := Run(crc32, first.engine, evs[1..]);
      assert Run(crc32, e, evs) == Prepend(first.effects, rest);
      ApplyPreservesValid(crc32, e, evs[0]);
      RunPreservesValid(crc32, first.engine, evs[1..]);
      assert Run(crc32, e, evs).engine == rest.engine;
    } else {
      assert Run(crc32, e, evs).engine == e;
    }
  }
}

=== FILE: bytes.dfy ===
/**
 Byte sequences and the fixed-width integer views of Node's `Buffer` that the
 protocol engine relies on: unsigned bytes, and the signed 32-bit big- and
 little-endian reads and writes used to place the checksum in a frame.
 */
module Bytes {

  /** One octet, as stored in a Node `Buffer`. */
  type uint8 = x: int | 0 <= x < 0x100

  type bytes = seq<uint8>

  const TWO_TO_THE_31: int := 0x8000_0000
  const TWO_TO_THE_32: int := 0x1_0000_0000

  /** An unsigned 32-bit value. */
  type uint32 = x: int | 0 <= x < 0x1_0000_0000

  /** A signed (two's complement) 32-bit value. */
  type int32 = x: int | -0x8000_0000 <= x < 0x8000_0000

  /** The bytes of `s` in the opposite order. */
  function Reverse<T>(s: seq<T>): (r: seq<T>)
    ensures |r| == |s|
    ensures forall i :: 0 <= i < |s| ==> r[i] == s[|s| - 1 - i]
  {
    if |s| == 0 then [] else Reverse(s[1..]) + [s[0]]
  }

  /** Four bytes read most significant first. */
  function FromBigEndian(b: bytes): (u: uint32)
    requires |b| == 4
  {
    ((b[0] as int * 0x100 + b[1]) * 0x100 + b[2]) * 0x100 + b[3]
  }

  /** The four bytes of `u`, most significant first; the inverse of `FromBigEndian`. */
  function ToBigEndian(u: uint32): (b: bytes)
    ensures |b| == 4
    ensures FromBigEndian(b) == u
  {
    var q1 := u / 0x100;
    var q2 := q1 / 0x100;
    [q2 / 0x100, q2 % 0x100, q1 % 0x100, u % 0x100]
  }

  lemma BigEndianRoundTrip(b: bytes)
    requires |b| == 4
    ensures ToBigEndian(FromBigEndian(b)) == b
  {
    var q2 := b[0] as int * 0x100 + b[1];
    var q1 := q2 * 0x100 + b[2];
    var u := q1 * 0x100 + b[3];
    assert u / 0x100 == q1 && u % 0x100 == b[3];
    assert q1 / 0x100 == q2 && q1 % 0x100 == b[2];
    assert q2 / 0x100 == b[0] && q2 % 0x100 == b[1];
  }

  /** Reinterpretation of an unsigned 32-bit pattern as two's complement. */
  function ToSigned(u: uint32): (v: int32)
    ensures v % TWO_TO_THE_32 == u
  {
    if u < TWO_TO_THE_31 then u else u - TWO_TO_THE_32
  }

  /** The 32-bit pattern of a two's complement value. */
  function ToUnsigned(v: int32): (u: uint32)
    ensures ToSigned(u) == v
  {
    if v < 0 then v + TWO_TO_THE_32 else v
  }

  /** `buf.readInt32BE(offset)`: bytes offset..offset+3, most significant first, signed. */
  function ReadInt32BE(buf: bytes, offset: nat): (v: int32)
    requires offset + 4 <= |buf|
    ensures ToUnsigned(v) == FromBigEndian(buf[offset..offset + 4])
  {
    ToSigned(FromBigEndian(buf[offset..offset + 4]))
  }

  /** `buf.readInt32LE(offset)`: bytes offset..offset+3, least significant first, signed. */
  function ReadInt32LE(buf: bytes, offset: nat): (v: int32)
    requires offset + 4 <= |buf|
    ensures ToUnsigned(v) == FromBigEndian(Reverse(buf[offset..offset + 4]))
  {
    ToSigned(FromBigEndian(Reverse(buf[offset..offset + 4])))
  }

  /** The four bytes `buf.writeInt32BE(v, offset)` stores. */
  function WriteInt32BE(v: int32): (b: bytes)
    ensures |b| == 4
    ensures ReadInt32BE(b, 0) == v
  {
    var b := ToBigEndian(ToUnsigned(v));
    assert b[0..4] == b;
    b
  }

  /** Two signed big-endian reads agree exactly when the bytes read agree. */
  lemma ReadInt32BEInjective(a: bytes, i: nat, b: bytes, j: nat)
    requires i + 4 <= |a| && j + 4 <= |b|
    ensures ReadInt32BE(a, i) == ReadInt32BE(b, j) <==> a[i..i + 4] == b[j..j + 4]
  {
    if ReadInt32BE(a, i) == ReadInt32BE(b, j) {
      BigEndianRoundTrip(a[i..i + 4]);
      BigEndianRoundTrip(b[j..j + 4]);
    }
  }

  /**
   Writing a little-endian read back big-endian reverses the four bytes: the
   checksum transfer of the frame codec.
   */
  lemma WriteBEOfReadLE(c: bytes)
    requires |c| == 4
    ensures WriteInt32BE(ReadInt32LE(c, 0)) == Reverse(c)
  {
    assert c[0..4] == c;
    BigEndianRoundTrip(Reverse(c));
  }

  /**
   A big-endian read of `m` at `i` equals a little-endian read of `c` exactly
   when the four bytes of `m` are those of `c` reversed.
   */
  lemma ReadBEEqualsReadLE(m: bytes, i: nat, c: bytes)
    requires i + 4 <= |m| && |c| == 4
    ensures ReadInt32BE(m, i) == ReadInt32LE(c, 0) <==> m[i..i + 4] == Reverse(c)
  {
    var w := WriteInt32BE(ReadInt32LE(c, 0));
    WriteBEOfReadLE(c);
    assert ReadInt32BE(w, 0) == ReadInt32LE(c, 0);
    assert w[0..4] == w;
    ReadInt32BEInjective(m, i, w, 0);
  }
}

=== FILE: correlation.dfy ===
/**
 Properties of command/response correlation: the sequence numbers commands
 use, where their callbacks are filed, and how single-part and multi-part
 replies reach them.
 */
module Correlation {
  import opened Wrappers
  import opened Bytes
  import opened Frame
  import opened Payloads
  import opened BattleNode

  /** One fragment of a multi-part reply: a 0 marker, the part count and this part's index. */
  function FragmentPayload(s: uint8, total: uint8, index: uint8, part: bytes): (payload: bytes) {
    [MARKER, BE_COMMAND_PACKET, s, 0, total, index] + part
  }

  /** A reply text the dispatcher treats as single-part. */
  predicate SinglePart(text: bytes) {
    |text| < 2 || text[0] != 0
  }

  /** The commands in `evs` are all `sendCommand` calls. */
  predicate AllCommands(evs: seq<Event>) {
    forall i :: 0 <= i < |evs| ==> evs[i].CommandSent?
  }

  /** A run that starts with a `sendCommand` call sends the command, then runs the rest. */
  lemma RunCommand(crc32: ChecksumFunction, e: Engine, evs: seq<Event>)
    requires |evs| > 0 && evs[0].CommandSent?
    ensures var s := SendCommand(crc32, e, evs[0].command, evs[0].callback);
      Run(crc32, e, evs) == Prepend(s.effects, Run(crc32, s.engine, evs[1..]))
  {
  }

  /** The datagrams that `sendCommand` calls for the commands of `evs` send, starting at `sequence`. */
  function SentCommands(crc32: ChecksumFunction, config: Config, sequence: uint8, evs: seq<Event>): (fx: seq<Effect>)
    requires AllCommands(evs)
    decreases |evs|
  {
    if |evs| == 0 then []
    else
      assert AllCommands(evs[1..]) by {
        forall i | 0 <= i < |evs| - 1 ensures evs[1..][i].CommandSent? {
          assert evs[1..][i] == evs[i + 1];
        }
      }
      [SendTo(config, CreateBEPacket(crc32, CommandPayload(sequence, evs[0].command)))]
        + SentCommands(crc32, config, NextSequence(sequence), evs[1..])
  }

  /** The `i`th datagram of `SentCommands` carries command `i` with the counter `i` steps on. */
  lemma {:induction false} SentCommandsAt(crc32: ChecksumFunction, config: Config, sequence: uint8, evs: seq<Event>)
    requires AllCommands(evs)
    ensures |SentCommands(crc32, config, sequence, evs)| == |evs|
    ensures forall i :: 0 <= i < |evs| ==>
      SentCommands(crc32, config, sequence, evs)[i] ==
        SendTo(config, CreateBEPacket(crc32, CommandPayload(Advance(sequence, i), evs[i].command)))
    decreases |evs|
  {
    if |evs| > 0 {
      var rest := evs[1..];
      var tail := SentCommands(crc32, config, NextSequence(sequence), rest);
      SentCommandsAt(crc32, config, NextSequence(sequence), rest);
      var fx := SentCommands(crc32, config, sequence, evs);
      assert fx == [SendTo(config, CreateBEPacket(crc32, CommandPayload(sequence, evs[0].command)))] + tail;
      forall i | 0 < i < |evs|
        ensures fx[i] == SendTo(config, CreateBEPacket(crc32, CommandPayload(Advance(sequence, i), evs[i].command)))
      {
        assert rest[i - 1] == evs[i];
        AdvanceStep(sequence, i);
        assert fx[i] == tail[i - 1];
      }
    }
  }

  /** A run of `sendCommand` calls sends `SentCommands` and advances the counter once per call. */
  lemma {:induction false} CommandsRun(crc32: ChecksumFunction, e: Engine, evs: seq<Event>)
    requires AllCommands(evs)
    ensures var r := Run(crc32, e, evs);
      && r.Done?
      && r.effects == SentCommands(crc32, e.config, e.sequence, evs)
      && r.engine.sequence == Advance(e.sequence, |evs|)
      && r.engine.config == e.config
    decreases |evs|
  {
    if |evs| > 0 {
      var s := SendCommand(crc32, e, evs[0].command, evs[0].callback);
      RunCommand(crc32, e, evs);
      var rest := evs[1..];
      assert AllCommands(rest) by {
        forall i | 0 <= i < |rest| ensures rest[i].CommandSent? {
          assert rest[i] == evs[i + 1];
        }
      }
      CommandsRun(crc32, s.engine, rest);
      AdvanceStep(e.sequence, |evs|);
    }
  }

  /**
   Consecutive `sendCommand` calls use consecutive sequence numbers, one
   datagram each, and leave the counter that many steps further on.
   */
  lemma CommandsUseConsecutiveSequences(crc32: ChecksumFunction, e: Engine, evs: seq<Event>)
    requires AllCommands(evs)
    ensures Run(crc32, e, evs).Done?
    ensures |Run(crc32, e, evs).effects| == |evs|
    ensures forall i :: 0 <= i < |evs| ==>
      Run(crc32, e, evs).effects[i] ==
        SendTo(e.config, CreateBEPacket(crc32, CommandPayload(Advance(e.sequence, i), evs[i].command)))
    ensures Run(crc32, e, evs).engine.sequence == Advance(e.sequence, |evs|)
  {
    CommandsRun(crc32, e, evs);
    SentCommandsAt(crc32, e.config, e.sequence, evs);
  }

  /**
   256 consecutive `sendCommand` calls send 256 different datagrams, whatever
   the command texts, and bring the counter back to where it started.
   */
  lemma SequenceCycle(crc32: ChecksumFunction, e: Engine, evs: seq<Event>)
    requires AllCommands(evs) && |evs| == 0x100
    ensures Run(crc32, e, evs).Done? && Run(crc32, e, evs).engine.sequence == e.sequence
    ensures |Run(crc32, e, evs).effects| == |evs|
    ensures forall i, j :: 0 <= i < j < |evs| ==> Run(crc32, e, evs).effects[i] != Run(crc32, e, evs).effects[j]
  {
    CommandsUseConsecutiveSequences(crc32, e, evs);
    CounterPeriod(e.sequence, |evs|);
    var fx := Run(crc32, e, evs).effects;
    forall i, j | 0 <= i < j < |evs| ensures fx[i] != fx[j] {
      var pi := CommandPayload(Advance(e.sequence, i), evs[i].command);
      var pj := CommandPayload(Advance(e.sequence, j), evs[j].command);
      AdvanceDistinct(e.sequence, i, j);
      assert SequenceOf(pi) != SequenceOf(pj);
      FrameInjective(crc32, pi, pj);
    }
  }

  /**
   A callback filed for sequence 255 sits under -1. No datagram can remove it,
   since a reply only ever removes the entry for its own sequence byte.
   */
  lemma CallbackFor255Unreachable(crc32: ChecksumFunction, e: Engine, command: bytes, cb: Callback, msg: bytes)
    requires e.sequence == 255
    ensures var s := SendCommand(crc32, e, command, Some(cb)).engine;
      && -1 in s.callbacks && s.callbacks[-1] == cb
      && 255 !in s.callbacks.Keys - e.callbacks.Keys
      && var r := Packet(crc32, s, msg);
         r.Done? ==> -1 in r.engine.callbacks && r.engine.callbacks[-1] == cb
  {
    PacketScope(crc32, SendCommand(crc32, e, command, Some(cb)).engine, msg);
  }

  /** The dispatcher's handling of a single-part command reply. */
  lemma SinglePartDispatch(crc32: ChecksumFunction, e: Engine, s: uint8, text: bytes)
    requires SinglePart(text)
    ensures var r := Dispatch(crc32, e, CommandPayload(s, text));
      && r.Done?
      && var keepalive := if |text| == 0 && s == e.lastKeepaliveSequence then 0 else e.lastKeepaliveSequence;
      && (HasFunction(e, s) ==>
            && r.effects == [Call(e.callbacks[s as int].id, text)]
            && r.engine == e.(callbacks := e.callbacks - {s as int}, lastKeepaliveSequence := keepalive))
      && (!HasFunction(e, s) ==>
            r == Done(e.(lastKeepaliveSequence := keepalive), []))
  {
    var p := CommandPayload(s, text);
    assert p[1] == 1 && p[2] == s && p[3..] == text;
  }

  /**
   A single-part command reply calls the callback filed under its sequence
   once with the reply text and removes only that entry; with no callback it
   changes nothing. An empty reply also acknowledges a matching keepalive.
   */
  lemma SinglePartReply(crc32: ChecksumFunction, e: Engine, s: uint8, text: bytes)
    requires SinglePart(text)
    ensures var r := Packet(crc32, e, CreateBEPacket(crc32, CommandPayload(s, text)));
      && r.Done?
      && var keepalive := if |text| == 0 && s == e.lastKeepaliveSequence then 0 else e.lastKeepaliveSequence;
      && (HasFunction(e, s) ==>
            && r.effects == [Call(e.callbacks[s as int].id, text)]
            && r.engine == e.(callbacks := e.callbacks - {s as int}, lastKeepaliveSequence := keepalive))
      && (!HasFunction(e, s) ==>
            r == Done(e.(lastKeepaliveSequence := keepalive), []))
  {
    ReceiveFrame(crc32, e, CommandPayload(s, text));
    SinglePartDispatch(crc32, e, s, text);
  }

  /** A command sent with a callback gets it called with the reply text, after which the table is as before. */
  lemma CommandThenReply(crc32: ChecksumFunction, e: Engine, command: bytes, id: nat, text: bytes)
    requires e.sequence < 255
    requires SinglePart(text) && |text| > 0
    requires e.sequence as int !in e.callbacks
    ensures var sent := SendCommand(crc32, e, command, Some(Function(id)));
      var r := Packet(crc32, sent.engine, CreateBEPacket(crc32, CommandPayload(e.sequence, text)));
      && r.Done?
      && sent.effects + r.effects ==
           [SendTo(e.config, CreateBEPacket(crc32, CommandPayload(e.sequence, command))), Call(id, text)]
      && r.engine == e.(sequence := NextSequence(e.sequence))
  {
    var sent := SendCommand(crc32, e, command, Some(Function(id)));
    SinglePartReply(crc32, sent.engine, e.sequence, text);
    assert sent.engine.callbacks - {e.sequence as int} == e.callbacks;
  }

  /** The dispatcher's handling of one fragment of a multi-part reply. */
  lemma FragmentDispatch(crc32: ChecksumFunction, e: Engine, s: uint8, total: uint8, index: uint8, part: bytes)
    ensures var r := Dispatch(crc32, e, FragmentPayload(s, total, index, part));
      && r.Done?
      && var buffer := (if s in e.multipartPacket then e.multipartPacket[s] else []) + part;
      && (index as int + 1 == total as int && HasFunction(e, s) ==>
            && r.effects == [Call(e.callbacks[s as int].id, buffer)]
            && r.engine == e.(callbacks := e.callbacks - {s as int},
                              multipartPacket := e.multipartPacket - {s}))
      && (index as int + 1 != total as int || !HasFunction(e, s) ==>
            && r.effects == []
            && r.engine == e.(multipartPacket := e.multipartPacket[s := buffer]))
  {
    var p := FragmentPayload(s, total, index, part);
    assert p[1] == 1 && p[2] == s && p[3] == 0 && p[4] == total && p[5] == index && p[6..] == part;
    var buffer := (if s in e.multipartPacket then e.multipartPacket[s] else []) + part;
    if s !in e.multipartPacket {
      assert [] + part == part;
    }
    assert AppendPart(e.multipartPacket, s, part) == e.multipartPacket[s := buffer];
    RemoveUpdated(e.multipartPacket, s, buffer);
  }

  /**
   One fragment of a multi-part reply appends its text to the buffer for its
   sequence; the last fragment, if a callback is filed, calls it with the
   whole buffer and drops both the callback and the buffer. Without a
   callback the buffer stays.
   */
  lemma FragmentReceived(crc32: ChecksumFunction, e: Engine, s: uint8, total: uint8, index: uint8, part: bytes)
    ensures var r := Packet(crc32, e, CreateBEPacket(crc32, FragmentPayload(s, total, index, part)));
      && r.Done?
      && var buffer := (if s in e.multipartPacket then e.multipartPacket[s] else []) + part;
      && (index as int + 1 == total as int && HasFunction(e, s) ==>
            && r.effects == [Call(e.callbacks[s as int].id, buffer)]
            && r.engine == e.(callbacks := e.callbacks - {s as int},
                              multipartPacket := e.multipartPacket - {s}))
      && (index as int + 1 != total as int || !HasFunction(e, s) ==>
            && r.effects == []
            && r.engine == e.(multipartPacket := e.multipartPacket[s := buffer]))
  {
    ReceiveFrame(crc32, e, FragmentPayload(s, total, index, part));
    FragmentDispatch(crc32, e, s, total, index, part);
  }

  /** The parts joined in order. */
  function Concat(parts: seq<bytes>): (joined: bytes)
    decreases |parts|
  {
    if |parts| == 0 then [] else Concat(parts[..|parts| - 1]) + parts[|parts| - 1]
  }

  /** Joining one more part extends the join of the parts before it. */
  lemma {:induction false} ConcatPrefix(parts: seq<bytes>, n: nat)
    requires n < |parts|
    ensures Concat(parts[..n + 1]) == Concat(parts[..n]) + parts[n]
    ensures n == 0 ==> Concat(parts[..n]) == []
    ensures n + 1 == |parts| ==> Concat(parts[..n + 1]) == Concat(parts)
  {
    assert parts[..n + 1][..n] == parts[..n];
    assert parts[..|parts|] == parts;
  }

  /** The datagram carrying fragment `index` of a reply in `|parts|` parts. */
  function FragmentEvent(crc32: ChecksumFunction, s: uint8, parts: seq<bytes>, index: nat): (ev: Event)
    requires 0 < |parts| < 0x100 && index < |parts|
  {
    Datagram(CreateBEPacket(crc32, FragmentPayload(s, |parts|, index, parts[index])))
  }

  /** The datagrams of fragments `from`.. of a reply in `|parts|` parts, in order. */
  function Fragments(crc32: ChecksumFunction, s: uint8, parts: seq<bytes>, from: nat): (evs: seq<Event>)
    requires 0 < |parts| < 0x100 && from <= |parts|
    ensures |evs| == |parts| - from
    ensures forall i :: 0 <= i < |evs| ==> evs[i] == FragmentEvent(crc32, s, parts, from + i)
  {
    seq(|parts| - from, i requires 0 <= i < |parts| - from => FragmentEvent(crc32, s, parts, from + i))
  }

  /** The fragments from `from` are fragment `from` followed by those after it. */
  lemma FragmentsCons(crc32: ChecksumFunction, s: uint8, parts: seq<bytes>, from: nat)
    requires 0 < |parts| < 0x100 && from < |parts|
    ensures Fragments(crc32, s, parts, from) ==
      [FragmentEvent(crc32, s, parts, from)] + Fragments(crc32, s, parts, from + 1)
  {
  }

  /**
   The engine is waiting for fragment `from` of a reply in `|parts|` parts to
   sequence `s`: a callback is filed and the earlier fragments are buffered.
   */
  predicate Awaiting(e: Engine, s: uint8, id: nat, parts: seq<bytes>, from: nat) {
    && 0 < |parts| < 0x100 && from < |parts|
    && s as int in e.callbacks && e.callbacks[s as int] == Function(id)
    && if from == 0 then s !in e.multipartPacket
       else s in e.multipartPacket && e.multipartPacket[s] == Concat(parts[..from])
  }

  /** The dispatcher's handling of the last fragment of a reply whose earlier fragments are buffered. */
  lemma {:induction false} LastFragmentDispatch(crc32: ChecksumFunction, e: Engine, s: uint8, id: nat, parts: seq<bytes>, from: nat)
    requires Awaiting(e, s, id, parts, from) && from + 1 == |parts|
    ensures Dispatch(crc32, e, FragmentPayload(s, |parts|, from, parts[from])) ==
      Done(e.(callbacks := e.callbacks - {s as int}, multipartPacket := e.multipartPacket - {s}),
           [Call(id, Concat(parts))])
  {
    ConcatPrefix(parts, from);
    FragmentDispatch(crc32, e, s, |parts|, from, parts[from]);
  }

  /** The dispatcher's handling of a middle fragment of a reply whose earlier fragments are buffered. */
  lemma {:induction false} MiddleFragmentDispatch(crc32: ChecksumFunction, e: Engine, s: uint8, id: nat, parts: seq<bytes>, from: nat)
    requires Awaiting(e, s, id, parts, from) && from + 1 < |parts|
    ensures Dispatch(crc32, e, FragmentPayload(s, |parts|, from, parts[from])) ==
      Done(e.(multipartPacket := e.multipartPacket[s := Concat(parts[..from + 1])]), [])
  {
    ConcatPrefix(parts, from);
    assert (if s in e.multipartPacket then e.multipartPacket[s] else []) + parts[from] == Concat(parts[..from + 1]);
    FragmentDispatch(crc32, e, s, |parts|, from, parts[from]);
  }

  /** The last fragment of a reply, with the earlier ones buffered, as one event. */
  lemma {:induction false} LastFragmentApplied(crc32: ChecksumFunction, e: Engine, s: uint8, id: nat, parts: seq<bytes>, from: nat)
    requires Awaiting(e, s, id, parts, from) && from + 1 == |parts|
    ensures Apply(crc32, e, FragmentEvent(crc32, s, parts, from)) ==
      Done(e.(callbacks := e.callbacks - {s as int}, multipartPacket := e.multipartPacket - {s}),
           [Call(id, Concat(parts))])
  {
    var p := FragmentPayload(s, |parts|, from, parts[from]);
    LastFragmentDispatch(crc32, e, s, id, parts, from);
    ReceiveFrame(crc32, e, p);
    ApplyDatagram(crc32, e, CreateBEPacket(crc32, p));
  }

  /** A middle fragment of a reply, with the earlier ones buffered, as one event. */
  lemma {:induction false} MiddleFragmentApplied(crc32: ChecksumFunction, e: Engine, s: uint8, id: nat, parts: seq<bytes>, from: nat)
    requires Awaiting(e, s, id, parts, from) && from + 1 < |parts|
    ensures Apply(crc32, e, FragmentEvent(crc32, s, parts, from)) ==
      Done(e.(multipartPacket := e.multipartPacket[s := Concat(parts[..from + 1])]), [])
  {
    var p := FragmentPayload(s, |parts|, from, parts[from]);
    MiddleFragmentDispatch(crc32, e, s, id, parts, from);
    ReceiveFrame(crc32, e, p);
    ApplyDatagram(crc32, e, CreateBEPacket(crc32, p));
  }

  /** The last fragment of a reply whose earlier fragments are buffered calls the callback. */
  lemma {:induction false} LastFragment(crc32: ChecksumFunction, e: Engine, s: uint8, id: nat, parts: seq<bytes>, from: nat)
    requires Awaiting(e, s, id, parts, from) && from + 1 == |parts|
    ensures Run(crc32, e, Fragments(crc32, s, parts, from)) ==
      Done(e.(callbacks := e.callbacks - {s as int}, multipartPacket := e.multipartPacket - {s}),
           [Call(id, Concat(parts))])
  {
    var ev := FragmentEvent(crc32, s, parts, from);
    FragmentsCons(crc32, s, parts, from);
    assert Fragments(crc32, s, parts, from) == [ev];
    LastFragmentApplied(crc32, e, s, id, parts, from);
    RunSingle(crc32, e, ev);
  }

  /** A middle fragment of a reply only extends the buffer. */
  lemma {:induction false} MiddleFragment(crc32: ChecksumFunction, e: Engine, s: uint8, id: nat, parts: seq<bytes>, from: nat)
    requires Awaiting(e, s, id, parts, from) && from + 1 < |parts|
    ensures Run(crc32, e, Fragments(crc32, s, parts, from)) ==
      Run(crc32, e.(multipartPacket := e.multipartPacket[s := Concat(parts[..from + 1])]),
          Fragments(crc32, s, parts, from + 1))
  {
    FragmentsCons(crc32, s, parts, from);
    MiddleFragmentApplied(crc32, e, s, id, parts, from);
    RunQuiet(crc32, e, FragmentEvent(crc32, s, parts, from), Fragments(crc32, s, parts, from + 1),
             e.(multipartPacket := e.multipartPacket[s := Concat(parts[..from + 1])]));
  }

  /** Receiving fragments `from`.. in order, with the first `from` already buffered. */
  lemma {:induction false} FragmentsFrom(crc32: ChecksumFunction, e: Engine, s: uint8, id: nat, parts: seq<bytes>, from: nat)
    requires Awaiting(e, s, id, parts, from)
    ensures Run(crc32, e, Fragments(crc32, s, parts, from)) ==
      Done(e.(callbacks := e.callbacks - {s as int}, multipartPacket := e.multipartPacket - {s}),
           [Call(id, Concat(parts))])
    decreases |parts| - from
  {
    if from + 1 == |parts| {
      LastFragment(crc32, e, s, id, parts, from);
    } else {
      MiddleFragment(crc32, e, s, id, parts, from);
      var e1 := e.(multipartPacket := e.multipartPacket[s := Concat(parts[..from + 1])]);
      FragmentsFrom(crc32, e1, s, id, parts, from + 1);
      RemoveUpdated(e.multipartPacket, s, Concat(parts[..from + 1]));
    }
  }

  /**
   Multi-part reassembly: the fragments of a reply, received in order, call
   the filed callback once with the concatenation of their texts and clear
   both the callback and the buffer for that sequence.
   */
  lemma {:induction false} MultipartReassembly(crc32: ChecksumFunction, e: Engine, s: uint8, id: nat, parts: seq<bytes>)
    requires 0 < |parts| < 0x100
    requires s as int in e.callbacks && e.callbacks[s as int] == Function(id)
    requires s !in e.multipartPacket
    ensures var r := Run(crc32, e, Fragments(crc32, s, parts, 0));
      && r.Done?
      && r.effects == [Call(id, Concat(parts))]
      && r.engine == e.(callbacks := e.callbacks - {s as int})
  {
    FragmentsFrom(crc32, e, s, id, parts, 0);
    RemoveAbsent(e.multipartPacket, s);
  }
}

=== FILE: crc32.dfy ===
/**
 The 32-bit cyclic redundancy check that guards every frame: the reflected
 CRC-32 of ISO 3309 / ITU-T V.42 (polynomial 0x04C11DB7, processed least
 significant bit first as 0xEDB88320, initial value and final xor 0xFFFFFFFF).
 This is the reference definition of the routine the `buffer-crc32` library
 supplies to the engine. Like that library, `Checksum` returns the 32-bit
 value as four bytes, most significant first; `Crc` is the same value as a
 number, the form in which the frame codec takes its checksum routine.
 */
module Crc32 {
  import opened Bytes

  const REFLECTED_POLYNOMIAL: bv32 := 0xEDB8_8320
  const ALL_ONES: bv32 := 0xFFFF_FFFF

  /** One bit of polynomial division, least significant bit first. */
  function ShiftBit(c: bv32): (shifted: bv32) {
    if c & 1 == 1 then (c >> 1) ^ REFLECTED_POLYNOMIAL else c >> 1
  }

  /** The eight bits of polynomial division that absorb one octet. */
  function ShiftOctet(c: bv32): (shifted: bv32) {
    ShiftBit(ShiftBit(ShiftBit(ShiftBit(ShiftBit(ShiftBit(ShiftBit(ShiftBit(c))))))))
  }

  /** The running register after absorbing `data`, one octet at a time. */
  function Update(c: bv32, data: bytes): (updated: bv32)
    decreases |data|
  {
    if |data| == 0 then c else Update(ShiftOctet(c ^ (data[0] as bv32)), data[1..])
  }

  /** The CRC-32 of `data`, as a 32-bit value. */
  function Value(data: bytes): (v: bv32) {
    Update(ALL_ONES, data) ^ ALL_ONES
  }

  /** `crc32(data)`: the checksum's four bytes, most significant first. */
  function Checksum(data: bytes): (c: bytes)
    ensures |c| == 4
  {
    var v := Value(data);
    [((v >> 24) & 0xFF) as uint8, ((v >> 16) & 0xFF) as uint8, ((v >> 8) & 0xFF) as uint8, (v & 0xFF) as uint8]
  }

  /** The CRC-32 of `data` as an unsigned number, whose big-endian bytes are `Checksum(data)`. */
  function Crc(data: bytes): (v: uint32)
    ensures ToBigEndian(v) == Checksum(data)
  {
    BigEndianRoundTrip(Checksum(data));
    FromBigEndian(Checksum(data))
  }
}

=== FILE: frame.dfy ===
/**
 The BattlEye wire frame: `'B'`, `'E'`, four checksum bytes, then the payload.
 The checksum field holds the CRC-32 of the payload with its bytes reversed
 (the library's big-endian bytes are read little-endian and written back
 big-endian).

 The CRC-32 routine itself comes from a library outside this model, so it is
 a parameter: any function that maps a payload to a 32-bit value, of which
 the library hands over the four bytes, most significant first.
 */
module Frame {
  import opened Bytes
  import opened Wrappers
  import Crc32

  /** `'B'`, `'E'`. */
  const MAGIC: bytes := [0x42, 0x45]
  const HEADER_LENGTH: nat := 6
  /** Datagrams shorter than this are ignored on receipt. */
  const MIN_FRAME_LENGTH: nat := 7

  /** A 32-bit checksum routine, such as the CRC-32 of `buffer-crc32` (`Crc32.Crc`). */
  type ChecksumFunction = bytes -> uint32

  /** `crc32(payload)`: the checksum's four bytes, most significant first. */
  function ChecksumBytes(crc32: ChecksumFunction, payload: bytes): (c: bytes)
    ensures |c| == 4
  {
    ToBigEndian(crc32(payload))
  }

  /**
   `createBEPacket(payload)` as the library writes it: the payload's CRC-32
   read as a signed little-endian integer and written back big-endian after
   the magic, then the payload.
   */
  function CreateBEPacketAsWritten(crc32: ChecksumFunction, payload: bytes): (packet: bytes) {
    var crc := ChecksumBytes(crc32, payload);
    MAGIC + WriteInt32BE(ReadInt32LE(crc, 0)) + payload
  }

  /** `createBEPacket(payload)`: the magic, the payload's CRC-32 in reverse byte order, the payload. */
  function CreateBEPacket(crc32: ChecksumFunction, payload: bytes): (packet: bytes) {
    MAGIC + Reverse(ChecksumBytes(crc32, payload)) + payload
  }

  /** The integer round trip of the library amounts to reversing the four checksum bytes. */
  lemma CreateBEPacketMatchesLibrary(crc32: ChecksumFunction, payload: bytes)
    ensures CreateBEPacket(crc32, payload) == CreateBEPacketAsWritten(crc32, payload)
  {
    WriteBEOfReadLE(ChecksumBytes(crc32, payload));
  }

  /**
   The frame of `payload` is `'B'`, `'E'`, the payload's CRC-32 with its four
   bytes reversed, then the payload.
   */
  lemma FrameLayout(crc32: ChecksumFunction, payload: bytes)
    ensures var packet := CreateBEPacket(crc32, payload);
      && |packet| == |payload| + HEADER_LENGTH
      && packet[..2] == MAGIC
      && packet[2..6] == Reverse(ChecksumBytes(crc32, payload))
      && packet[HEADER_LENGTH..] == payload
  {
  }

  /**
   With the standard CRC-32 of `Crc32` as the routine, the checksum field of
   a frame holds the four bytes `buffer-crc32` returns, in reverse order.
   */
  lemma StandardChecksumField(payload: bytes)
    ensures CreateBEPacket(Crc32.Crc, payload)[2..6] == Reverse(Crc32.Checksum(payload))
  {
    FrameLayout(Crc32.Crc, payload);
  }

  /** A datagram that passes the three checks of the receive path. */
  predicate WellFormed(crc32: ChecksumFunction, msg: bytes) {
    && |msg| >= MIN_FRAME_LENGTH
    && msg[0] == 0x42 && msg[1] == 0x45
    && msg[2..6] == Reverse(ChecksumBytes(crc32, msg[HEADER_LENGTH..]))
  }

  /**
   The receive check as the library writes it: length, magic, then the signed
   big-endian read of the checksum field against the signed little-endian
   read of the payload's CRC-32. Yields the payload of a frame that passes.
   */
  function UnframeAsWritten(crc32: ChecksumFunction, msg: bytes): (r: Option<bytes>) {
    if |msg| < MIN_FRAME_LENGTH then None
    else if msg[..2] != MAGIC then None
    else
      var payload := msg[HEADER_LENGTH..];
      if ReadInt32BE(msg, 2) == ReadInt32LE(ChecksumBytes(crc32, payload), 0) then Some(payload) else None
  }

  /** The receive check: the payload of a well-formed datagram, nothing otherwise. */
  function Unframe(crc32: ChecksumFunction, msg: bytes): (r: Option<bytes>)
    ensures r.Some? <==> WellFormed(crc32, msg)
    ensures r.Some? ==> r.value == msg[HEADER_LENGTH..] && |r.value| >= 1
  {
    if WellFormed(crc32, msg) then Some(msg[HEADER_LENGTH..]) else None
  }

  /** The library's integer comparison of the checksums amounts to comparing the reversed bytes. */
  lemma UnframeMatchesLibrary(crc32: ChecksumFunction, msg: bytes)
    ensures Unframe(crc32, msg) == UnframeAsWritten(crc32, msg)
  {
    if |msg| >= MIN_FRAME_LENGTH {
      ReadBEEqualsReadLE(msg, 2, ChecksumBytes(crc32, msg[HEADER_LENGTH..]));
      assert msg[..2] == MAGIC <==> msg[0] == 0x42 && msg[1] == 0x45;
    }
  }

  /** Every non-empty payload survives framing and unframing unchanged. */
  lemma RoundTrip(crc32: ChecksumFunction, p: bytes)
    requires |p| >= 1
    ensures Unframe(crc32, CreateBEPacket(crc32, p)) == Some(p)
  {
    var m := CreateBEPacket(crc32, p);
    FrameLayout(crc32, p);
    assert m[HEADER_LENGTH..] == p;
    assert m[0] == m[..2][0] && m[1] == m[..2][1];
  }

  /** Different payloads give different frames. */
  lemma FrameInjective(crc32: ChecksumFunction, p: bytes, q: bytes)
    ensures CreateBEPacket(crc32, p) == CreateBEPacket(crc32, q) <==> p == q
  {
    FrameLayout(crc32, p);
    FrameLayout(crc32, q);
  }

  /** The empty payload frames to six bytes, which the receive path ignores. */
  lemma EmptyPayloadNotAccepted(crc32: ChecksumFunction)
    ensures Unframe(crc32, CreateBEPacket(crc32, [])) == None
  {
    FrameLayout(crc32, []);
  }

  /** The accepted datagrams are exactly the frames `CreateBEPacket` builds. */
  lemma AcceptedIsFramed(crc32: ChecksumFunction, msg: bytes, p: bytes)
    requires Unframe(crc32, msg) == Some(p)
    ensures msg == CreateBEPacket(crc32, p)
  {
    var m := CreateBEPacket(crc32, p);
    FrameLayout(crc32, p);
    assert WellFormed(crc32, msg);
    assert p == msg[HEADER_LENGTH..];
    assert msg[..2] == MAGIC;
    assert msg[2..6] == m[2..6];
    assert msg == msg[..2] + msg[2..6] + msg[6..];
    assert m == m[..2] + m[2..6] + m[6..];
  }

  /**
   Changing any one byte of the magic or the checksum field of a valid frame
   makes the receive path reject it.
   */
  lemma HeaderTamperRejected(crc32: ChecksumFunction, p: bytes, i: nat, b: uint8)
    requires |p| >= 1
    requires i < HEADER_LENGTH
    requires CreateBEPacket(crc32, p)[i] != b
    ensures Unframe(crc32, CreateBEPacket(crc32, p)[i := b]) == None
  {
    var m := CreateBEPacket(crc32, p);
    FrameLayout(crc32, p);
    var t := m[i := b];
    assert t[HEADER_LENGTH..] == p;
    if 2 <= i {
      assert t[2..6][i - 2] != m[2..6][i - 2];
    } else {
      assert m[0] == m[..2][0] && m[1] == m[..2][1];
    }
  }
}

=== FILE: payloads.dfy ===
/**
 The payloads carried inside frames: a 0xFF marker, a packet type, and a
 type-specific body. The outgoing builders fill the fixed offsets that the
 dispatcher reads back on receipt (type at offset 1, sequence at offset 2,
 text from offset 3).
 */
module Payloads {
  import opened Bytes

  const MARKER: uint8 := 0xFF
  const BE_LOGIN_PACKET: uint8 := 0
  const BE_COMMAND_PACKET: uint8 := 1
  const BE_SERVER_MSG_PACKET: uint8 := 2

  /** `payload.readUInt8(1)`. */
  function TypeOf(p: bytes): (kind: uint8)
    requires |p| >= 2
  {
    p[1]
  }

  /** `payload.readUInt8(2)`: the sequence byte (the success flag of a login reply). */
  function SequenceOf(p: bytes): (sequence: uint8)
    requires |p| >= 3
  {
    p[2]
  }

  /** `payload.slice(3)`: the text of a command reply or server message. */
  function TextOf(p: bytes): (text: bytes)
    requires |p| >= 3
  {
    p[3..]
  }

  /** The buffer `loginPacket` frames: marker, login type, password. */
  function LoginPayload(password: bytes): (p: bytes)
    ensures |p| == |password| + 2
    ensures p[0] == MARKER && TypeOf(p) == BE_LOGIN_PACKET && p[2..] == password
  {
    [MARKER, BE_LOGIN_PACKET] + password
  }

  /** The buffer `commandPacket` frames: marker, command type, sequence, command text. */
  function CommandPayload(sequence: uint8, command: bytes): (p: bytes)
    ensures |p| == |command| + 3
    ensures p[0] == MARKER && TypeOf(p) == BE_COMMAND_PACKET
    ensures SequenceOf(p) == sequence && TextOf(p) == command
  {
    [MARKER, BE_COMMAND_PACKET, sequence] + command
  }

  /** The buffer `keepalivePacket` frames: a command with no text. */
  function KeepalivePayload(sequence: uint8): (p: bytes)
    ensures p == CommandPayload(sequence, [])
  {
    [MARKER, BE_COMMAND_PACKET, sequence]
  }

  /** The buffer `ackPacket` frames: marker, server-message type, the acknowledged sequence. */
  function AckPayload(sequence: uint8): (p: bytes)
    ensures |p| == 3 && p[0] == MARKER
    ensures TypeOf(p) == BE_SERVER_MSG_PACKET && SequenceOf(p) == sequence
  {
    [MARKER, BE_SERVER_MSG_PACKET, sequence]
  }

  /** Different commands or sequences give different command payloads. */
  lemma CommandPayloadInjective(s1: uint8, c1: bytes, s2: uint8, c2: bytes)
    requires CommandPayload(s1, c1) == CommandPayload(s2, c2)
    ensures s1 == s2 && c1 == c2
  {
    assert SequenceOf(CommandPayload(s1, c1)) == s1;
    assert TextOf(CommandPayload(s1, c1)) == c1;
  }

  /** The counter step after a command or keepalive: 255 wraps to 0. */
  function NextSequence(s: uint8): (n: uint8)
    ensures n == (s + 1) % 0x100
  {
    if s >= 255 then 0 else s + 1
  }

  /** The counter after `n` steps. */
  function Advance(s: uint8, n: nat): (advanced: uint8)
    decreases n
  {
    if n == 0 then s else Advance(NextSequence(s), n - 1)
  }

  /** The first of `n` steps. */
  lemma AdvanceStep(s: uint8, n: nat)
    requires n > 0
    ensures Advance(s, n) == Advance(NextSequence(s), n - 1)
  {
  }

  /** `n` steps of the counter add `n` modulo 256. */
  lemma {:induction false} AdvanceIsAddition(s: uint8, n: nat)
    ensures Advance(s, n) == (s + n) % 0x100
    decreases n
  {
    if n > 0 {
      AdvanceIsAddition(NextSequence(s), n - 1);
      assert (((s + 1) % 0x100) + (n - 1)) % 0x100 == (s + n) % 0x100;
    }
  }

  /** After 256 steps the counter is back where it started, and not before. */
  lemma CounterPeriod(s: uint8, n: nat)
    requires 0 < n <= 0x100
    ensures Advance(s, n) == s <==> n == 0x100
  {
    AdvanceIsAddition(s, n);
    if s + n < 0x100 {
      assert (s + n) % 0x100 == s + n;
    } else {
      assert (s + n) % 0x100 == s + n - 0x100;
    }
  }

  /** A value below two periods wraps at most once. */
  lemma WrapOnce(x: nat)
    requires x < 0x200
    ensures x < 0x100 ==> x % 0x100 == x
    ensures x >= 0x100 ==> x % 0x100 == x - 0x100
  {
  }

  /** Within one period the counter never repeats a value. */
  lemma AdvanceDistinct(s: uint8, i: nat, j: nat)
    requires i < j < 0x100
    ensures Advance(s, i) != Advance(s, j)
  {
    AdvanceIsAddition(s, i);
    AdvanceIsAddition(s, j);
    WrapOnce(s + i);
    WrapOnce(s + j);
  }
}

=== FILE: session.dfy ===
/**
 Properties of the session around commands: the keepalive that detects a
 lost server, the login handshake and its timeout, server messages and their
 acknowledgement, and datagrams the engine ignores.
 */
module Session {
  import opened Bytes
  import opened Frame
  import opened Payloads
  import opened BattleNode

  // ---- keepalive -------------------------------------------------------

  /** The keepalive datagram the tick sends from an engine whose counter is at `sequence`. */
  function KeepaliveSend(crc32: ChecksumFunction, c: Config, sequence: uint8): (effect: Effect) {
    SendTo(c, CreateBEPacket(crc32, KeepalivePayload(sequence)))
  }

  /**
   The server's answer to the keepalive the last tick sent clears the
   outstanding sequence, so the next tick does not report a disconnection.
   */
  lemma KeepaliveAckClears(crc32: ChecksumFunction, e: Engine)
    requires e.keepaliveRunning
    ensures var t := KeepaliveTick(crc32, e).engine;
      var r := Packet(crc32, t, CreateBEPacket(crc32, KeepalivePayload(e.sequence)));
      && r.Done?
      && r.engine.lastKeepaliveSequence == 0
      && r.engine.keepaliveRunning == t.keepaliveRunning
      && r.engine.sequence == t.sequence
  {
    var t := KeepaliveTick(crc32, e).engine;
    var p := KeepalivePayload(e.sequence);
    ReceiveFrame(crc32, t, p);
    assert |p| == 3 && p[1] == BE_COMMAND_PACKET && p[2] == t.lastKeepaliveSequence;
  }

  /**
   Two ticks with no answer in between: the first sends a keepalive, the
   second finds it unanswered, reports the disconnection, stops the interval
   and still sends a second keepalive. Holds unless the first keepalive used
   sequence 0, which reads as "nothing outstanding".
   */
  lemma MissedKeepaliveDisconnects(crc32: ChecksumFunction, e: Engine)
    requires e.keepaliveRunning && e.lastKeepaliveSequence == 0 && e.sequence != 0
    ensures var r := Run(crc32, e, [Tick, Tick]);
      && r.Done?
      && r.effects == [KeepaliveSend(crc32, e.config, e.sequence), EmitDisconnected,
                       KeepaliveSend(crc32, e.config, NextSequence(e.sequence))]
      && !r.engine.keepaliveRunning
      && r.engine.sequence == Advance(e.sequence, 2)
  {
    var t1 := KeepaliveTick(crc32, e);
    var t2 := KeepaliveTick(crc32, t1.engine);
    RunStep(crc32, e, [Tick, Tick]);
    assert [Tick, Tick][1..] == [Tick];
    RunSingle(crc32, t1.engine, Tick);
    assert t1.effects + t2.effects == [KeepaliveSend(crc32, e.config, e.sequence), EmitDisconnected,
                                       KeepaliveSend(crc32, e.config, NextSequence(e.sequence))];
  }

  /**
   The keepalive with sequence 0 is never found missing: after it the
   outstanding sequence is 0 again, so the next tick carries on as if it had
   been answered.
   */
  lemma SequenceZeroKeepaliveNeverMissed(crc32: ChecksumFunction, e: Engine)
    requires e.keepaliveRunning && e.lastKeepaliveSequence == 0 && e.sequence == 0
    ensures var r := Run(crc32, e, [Tick, Tick]);
      && r.Done?
      && r.effects == [KeepaliveSend(crc32, e.config, 0), KeepaliveSend(crc32, e.config, 1)]
      && r.engine.keepaliveRunning
      && r.engine.lastKeepaliveSequence == 1
  {
    var t1 := KeepaliveTick(crc32, e);
    RunStep(crc32, e, [Tick, Tick]);
    assert [Tick, Tick][1..] == [Tick];
    RunSingle(crc32, t1.engine, Tick);
  }

  /** The engine after a tick whose keepalive the server then answered. */
  function Answered(crc32: ChecksumFunction, e: Engine): (answered: Engine) {
    KeepaliveTick(crc32, e).engine.(lastKeepaliveSequence := 0)
  }

  /** A tick followed by the server's answer to its keepalive only sends that keepalive. */
  lemma TickAnswered(crc32: ChecksumFunction, e: Engine, rest: seq<Event>)
    requires e.keepaliveRunning && e.lastKeepaliveSequence == 0
    requires !HasFunction(e, e.sequence)
    ensures var ack := Datagram(CreateBEPacket(crc32, KeepalivePayload(e.sequence)));
      Run(crc32, e, [Tick, ack] + rest) ==
        Prepend([KeepaliveSend(crc32, e.config, e.sequence)], Run(crc32, Answered(crc32, e), rest))
  {
    var ack := Datagram(CreateBEPacket(crc32, KeepalivePayload(e.sequence)));
    var t1 := KeepaliveTick(crc32, e);
    KeepaliveAnswerApplied(crc32, t1.engine);
    RunCons(crc32, e, Tick, [ack] + rest);
    assert [Tick, ack] + rest == [Tick] + ([ack] + rest);
    RunQuiet(crc32, t1.engine, ack, rest, Answered(crc32, e));
  }

  /**
   A tick, the server's answer to it, and another tick: both keepalives are
   sent, nothing is reported, and the interval keeps running. The answer
   calls no callback when none is filed under the keepalive's sequence.
   */
  lemma AnsweredKeepaliveStaysAlive(crc32: ChecksumFunction, e: Engine)
    requires e.keepaliveRunning && e.lastKeepaliveSequence == 0
    requires !HasFunction(e, e.sequence)
    ensures var ack := Datagram(CreateBEPacket(crc32, KeepalivePayload(e.sequence)));
      var r := Run(crc32, e, [Tick, ack, Tick]);
      && r.Done?
      && r.effects == [KeepaliveSend(crc32, e.config, e.sequence),
                       KeepaliveSend(crc32, e.config, NextSequence(e.sequence))]
      && r.engine.keepaliveRunning
      && r.engine.lastKeepaliveSequence == NextSequence(e.sequence)
  {
    var ack := Datagram(CreateBEPacket(crc32, KeepalivePayload(e.sequence)));
    var e2 := Answered(crc32, e);
    TickAnswered(crc32, e, [Tick]);
    assert [Tick, ack] + [Tick] == [Tick, ack, Tick];
    RunSingle(crc32, e2, Tick);
  }

  /** The answer to the outstanding keepalive, as an event, when no callback is filed under its sequence. */
  lemma KeepaliveAnswerApplied(crc32: ChecksumFunction, e: Engine)
    requires !HasFunction(e, e.lastKeepaliveSequence)
    ensures Apply(crc32, e, Datagram(CreateBEPacket(crc32, KeepalivePayload(e.lastKeepaliveSequence)))) ==
      Done(e.(lastKeepaliveSequence := 0), [])
  {
    var p := KeepalivePayload(e.lastKeepaliveSequence);
    ReceiveFrame(crc32, e, p);
    ApplyDatagram(crc32, e, CreateBEPacket(crc32, p));
    assert |p| == 3 && p[1] == BE_COMMAND_PACKET && p[2] == e.lastKeepaliveSequence;
  }

  /** Every event of `evs` is a keepalive tick. */
  predicate AllTicks(evs: seq<Event>) {
    forall i :: 0 <= i < |evs| ==> evs[i] == Tick
  }

  /** Once the interval is cleared, any number of ticks does nothing. */
  lemma {:induction false} StoppedKeepaliveSilent(crc32: ChecksumFunction, e: Engine, evs: seq<Event>)
    requires !e.keepaliveRunning && AllTicks(evs)
    ensures Run(crc32, e, evs) == Done(e, [])
    decreases |evs|
  {
    if |evs| > 0 {
      RunStep(crc32, e, evs);
      assert AllTicks(evs[1..]) by {
        forall i | 0 <= i < |evs| - 1 ensures evs[1..][i] == Tick {
          assert evs[1..][i] == evs[i + 1];
        }
      }
      StoppedKeepaliveSilent(crc32, e, evs[1..]);
      PrependNothing(Run(crc32, e, evs[1..]));
    }
  }

  /** No payload touches the keepalive interval or reports `disconnected`. */
  lemma DispatchLeavesKeepalive(crc32: ChecksumFunction, e: Engine, payload: bytes)
    requires |payload| >= 1
    ensures var r := Dispatch(crc32, e, payload);
      r.Done? ==> r.engine.keepaliveRunning == e.keepaliveRunning && EmitDisconnected !in r.effects
  {
  }

  /**
   Only a tick of a running interval whose keepalive is unanswered reports
   `disconnected`; it does so once and clears the interval. No event
   restarts a cleared interval.
   */
  lemma ApplyDisconnects(crc32: ChecksumFunction, e: Engine, ev: Event)
    ensures var r := Apply(crc32, e, ev);
      && (r.Done? && !e.keepaliveRunning ==> !r.engine.keepaliveRunning)
      && (r.Done? && EmitDisconnected in r.effects ==>
            && ev == Tick && e.keepaliveRunning && e.lastKeepaliveSequence != 0
            && !r.engine.keepaliveRunning
            && multiset(r.effects)[EmitDisconnected] == 1)
  {
    match ev
    case Datagram(m) =>
      if WellFormed(crc32, m) {
        DispatchLeavesKeepalive(crc32, e, m[HEADER_LENGTH..]);
      }
    case _ =>
  }

  /**
   Once the interval is cleared it stays cleared, and `disconnected` is not
   reported again, whatever commands, datagrams, logins and timeouts follow.
   */
  lemma {:induction false} StoppedStaysStopped(crc32: ChecksumFunction, e: Engine, evs: seq<Event>)
    requires !e.keepaliveRunning
    requires Run(crc32, e, evs).Done?
    ensures var r := Run(crc32, e, evs);
      !r.engine.keepaliveRunning && EmitDisconnected !in r.effects
    decreases |evs|
  {
    if |evs| > 0 {
      var first := Apply(crc32, e, evs[0]);
      RunStep(crc32, e, evs);
      ApplyDisconnects(crc32, e, evs[0]);
      StoppedStaysStopped(crc32, first.engine, evs[1..]);
    }
  }

  /** Over any run, `disconnected` is reported at most once. */
  lemma {:induction false} DisconnectedAtMostOnce(crc32: ChecksumFunction, e: Engine, evs: seq<Event>)
    requires Run(crc32, e, evs).Done?
    ensures multiset(Run(crc32, e, evs).effects)[EmitDisconnected] <= 1
    decreases |evs|
  {
    if |evs| > 0 {
      var first := Apply(crc32, e, evs[0]);
      RunStep(crc32, e, evs);
      ApplyDisconnects(crc32, e, evs[0]);
      var rest := Run(crc32, first.engine, evs[1..]);
      if EmitDisconnected in first.effects {
        StoppedStaysStopped(crc32, first.engine, evs[1..]);
      } else {
        DisconnectedAtMostOnce(crc32, first.engine, evs[1..]);
      }
      assert multiset(first.effects + rest.effects) == multiset(first.effects) + multiset(rest.effects);
    }
  }

  // ---- login -----------------------------------------------------------

  /** The server's answer to a login: the login type and a success byte, then anything. */
  function LoginReply(success: uint8, rest: bytes): (payload: bytes) {
    [MARKER, BE_LOGIN_PACKET, success] + rest
  }

  /**
   A login answer records that the server answered and emits `login` with
   success exactly when the third byte is 1; nothing else changes.
   */
  lemma LoginResponse(crc32: ChecksumFunction, e: Engine, success: uint8, rest: bytes)
    ensures Packet(crc32, e, CreateBEPacket(crc32, LoginReply(success, rest))) ==
      Done(e.(receivedLoginResponse := true), [EmitLogin(success == 1)])
  {
    var p := LoginReply(success, rest);
    ReceiveFrame(crc32, e, p);
    assert p[1] == BE_LOGIN_PACKET && p[2] == success;
  }

  /** A login answer as an event. */
  lemma LoginResponseApplied(crc32: ChecksumFunction, e: Engine, success: uint8)
    ensures Apply(crc32, e, Datagram(CreateBEPacket(crc32, LoginReply(success, [])))) ==
      Done(e.(receivedLoginResponse := true), [EmitLogin(success == 1)])
  {
    LoginResponse(crc32, e, success, []);
    ApplyDatagram(crc32, e, CreateBEPacket(crc32, LoginReply(success, [])));
  }

  /** The datagram `login()` sends. */
  function LoginSend(crc32: ChecksumFunction, c: Config): (effect: Effect) {
    SendTo(c, CreateBEPacket(crc32, LoginPayload(c.rconPassword)))
  }

  /**
   `login()` with no answer before the timeout: the login is sent, then the
   timeout emits the login error and stops the keepalive interval.
   */
  lemma LoginUnanswered(crc32: ChecksumFunction, e: Engine)
    requires !e.receivedLoginResponse && e.pendingLoginTimeouts == 0
    ensures var r := Run(crc32, e, [LoginCalled, LoginTimerFired]);
      && r.Done?
      && r.effects == [LoginSend(crc32, e.config), EmitLoginError]
      && r.engine == e.(keepaliveRunning := false)
  {
    var l := Login(crc32, e);
    RunStep(crc32, e, [LoginCalled, LoginTimerFired]);
    assert [LoginCalled, LoginTimerFired][1..] == [LoginTimerFired];
    RunSingle(crc32, l.engine, LoginTimerFired);
    assert l.effects + [EmitLoginError] == [LoginSend(crc32, e.config), EmitLoginError];
  }

  /**
   `login()` answered before the timeout: the answer emits `login` with its
   outcome and the timeout then does nothing.
   */
  lemma LoginAnswered(crc32: ChecksumFunction, e: Engine, success: uint8)
    requires !e.receivedLoginResponse && e.pendingLoginTimeouts == 0
    ensures var reply := Datagram(CreateBEPacket(crc32, LoginReply(success, [])));
      var r := Run(crc32, e, [LoginCalled, reply, LoginTimerFired]);
      && r.Done?
      && r.effects == [LoginSend(crc32, e.config), EmitLogin(success == 1)]
      && r.engine == e.(receivedLoginResponse := true)
  {
    var reply := Datagram(CreateBEPacket(crc32, LoginReply(success, [])));
    var evs := [LoginCalled, reply, LoginTimerFired];
    var l := Login(crc32, e);
    var e2 := l.engine.(receivedLoginResponse := true);
    LoginResponseApplied(crc32, l.engine, success);
    RunStep(crc32, e, evs);
    assert evs[1..] == [reply, LoginTimerFired];
    RunStep(crc32, l.engine, evs[1..]);
    assert evs[1..][1..] == [LoginTimerFired];
    RunSingle(crc32, e2, LoginTimerFired);
    assert l.effects + ([EmitLogin(success == 1)] + []) == [LoginSend(crc32, e.config), EmitLogin(success == 1)];
  }

  /**
   A login answer that arrives after the timeout has already reported the
   error still emits `login` with its outcome; the keepalive interval stays
   stopped.
   */
  lemma LateLoginResponseStillEmits(crc32: ChecksumFunction, e: Engine, success: uint8)
    requires !e.receivedLoginResponse && e.pendingLoginTimeouts == 0
    ensures var reply := Datagram(CreateBEPacket(crc32, LoginReply(success, [])));
      var r := Run(crc32, e, [LoginCalled, LoginTimerFired, reply]);
      && r.Done?
      && r.effects == [LoginSend(crc32, e.config), EmitLoginError, EmitLogin(success == 1)]
      && r.engine == e.(keepaliveRunning := false, receivedLoginResponse := true)
  {
    var reply := Datagram(CreateBEPacket(crc32, LoginReply(success, [])));
    var evs := [LoginCalled, LoginTimerFired, reply];
    var l := Login(crc32, e);
    var t := LoginTimeout(l.engine);
    LoginResponseApplied(crc32, t.engine, success);
    RunStep(crc32, e, evs);
    assert evs[1..] == [LoginTimerFired, reply];
    RunStep(crc32, l.engine, evs[1..]);
    assert evs[1..][1..] == [reply];
    RunSingle(crc32, t.engine, reply);
    assert l.effects + (t.effects + [EmitLogin(success == 1)]) ==
      [LoginSend(crc32, e.config), EmitLoginError, EmitLogin(success == 1)];
  }

  // ---- server messages and ignored datagrams ---------------------------

  /** A message the server pushes: the server-message type, its sequence, the text. */
  function ServerMessage(s: uint8, text: bytes): (payload: bytes) {
    [MARKER, BE_SERVER_MSG_PACKET, s] + text
  }

  /**
   A server message is acknowledged with its own sequence and emitted as a
   `message` event; the engine's state does not change.
   */
  lemma ServerMessageAcknowledged(crc32: ChecksumFunction, e: Engine, s: uint8, text: bytes)
    ensures Packet(crc32, e, CreateBEPacket(crc32, ServerMessage(s, text))) ==
      Done(e, [SendTo(e.config, CreateBEPacket(crc32, AckPayload(s))), EmitMessage(text)])
  {
    var p := ServerMessage(s, text);
    ReceiveFrame(crc32, e, p);
    assert p[1] == BE_SERVER_MSG_PACKET && p[2] == s && p[3..] == text;
  }

  /** A payload whose type byte is none of the three known types is ignored. */
  lemma UnknownTypeIgnored(crc32: ChecksumFunction, e: Engine, marker: uint8, kind: uint8, rest: bytes)
    requires kind > BE_SERVER_MSG_PACKET
    ensures Packet(crc32, e, CreateBEPacket(crc32, [marker, kind] + rest)) == Done(e, [])
  {
    var p := [marker, kind] + rest;
    ReceiveFrame(crc32, e, p);
    assert p[1] == kind;
  }

  /** The first payload byte, meant to be 0xFF, is never looked at. */
  lemma MarkerIgnored(crc32: ChecksumFunction, e: Engine, a: uint8, b: uint8, rest: bytes)
    ensures Dispatch(crc32, e, [a] + rest) == Dispatch(crc32, e, [b] + rest)
  {
    var p := [a] + rest;
    var q := [b] + rest;
    forall i | 1 <= i < |p| ensures p[i] == q[i] {
      assert p[i] == rest[i - 1] == q[i];
    }
    if |p| >= 3 {
      assert p[3..] == q[3..];
    }
    if |p| >= 6 {
      assert p[6..] == q[6..];
    }
  }

  /**
   A command reply of five bytes whose fourth byte is zero looks like the
   start of a multi-part reply, and reading its part index throws.
   */
  lemma ShortMultipartThrows(crc32: ChecksumFunction, e: Engine, s: uint8, total: uint8)
    ensures Packet(crc32, e, CreateBEPacket(crc32, [MARKER, BE_COMMAND_PACKET, s, 0, total])) == RangeError(5)
  {
    var p := [MARKER, BE_COMMAND_PACKET, s, 0, total];
    ReceiveFrame(crc32, e, p);
    assert Dispatch(crc32, e, p) == OnCommandResponse(e, p);
  }

  /** Every event of `evs` is a datagram that fails the length, magic or checksum check. */
  predicate AllMalformed(crc32: ChecksumFunction, evs: seq<Event>) {
    forall i :: 0 <= i < |evs| ==> evs[i].Datagram? && !WellFormed(crc32, evs[i].msg)
  }

  /** Any number of datagrams that fail the receive checks change nothing and cause nothing. */
  lemma {:induction false} MalformedIgnored(crc32: ChecksumFunction, e: Engine, evs: seq<Event>)
    requires AllMalformed(crc32, evs)
    ensures Run(crc32, e, evs) == Done(e, [])
    decreases |evs|
  {
    if |evs| > 0 {
      PacketScope(crc32, e, evs[0].msg);
      ApplyDatagram(crc32, e, evs[0].msg);
      RunStep(crc32, e, evs);
      assert AllMalformed(crc32, evs[1..]) by {
        forall i | 0 <= i < |evs| - 1
          ensures evs[1..][i].Datagram? && !WellFormed(crc32, evs[1..][i].msg)
        {
          assert evs[1..][i] == evs[i + 1];
        }
      }
      MalformedIgnored(crc32, e, evs[1..]);
      PrependNothing(Run(crc32, e, evs[1..]));
    }
  }

  /** `connected` starts false and no sequence of events ever sets it. */
  lemma NeverConnected(crc32: ChecksumFunction, config: Config, evs: seq<Event>)
    requires Run(crc32, Create(config), evs).Done?
    ensures !Run(crc32, Create(config), evs).engine.connected
  {
    RunPreservesValid(crc32, Create(config), evs);
  }
}

=== FILE: wrappers.dfy ===
/** The optional value used for absent callbacks and rejected frames. */
module Wrappers {

  datatype Option<+T> = None | Some(value: T)
}
